=== FILE: README.md ===
# A verified model of a small multi-threaded Redis clone

This project models the core of a Redis-compatible server written in Go,
and proves properties of the model. The model has seven parts:

- **Count-Min Sketch** (`CountMinSketch`, cms.dfy). This follows `cms.go`
  line by line: a depth × width matrix of uint32 counters, `IncrBy` with a
  saturating add and a running minimum, and `Count`.
- **ZADD, ZSCORE and ZRANK** (`SortedSetCommands`, command_sorted_set.dfy).
  This follows `command_sorted_set.go` over an explicit key → sorted-set
  store. It includes the non-atomic behaviour of ZADD: the key is created
  first, and pairs applied before a bad score stay applied.
- **RESP2 request decoder** (`Resp`, resp.dfy). This covers
  `readSimpleString`, `readInt64`, `readBulkString` and `readArray`. Each is
  a pure function from a buffer to the decoded value and the number of
  bytes consumed. The reply encoder follows the RESP2 wire grammar, and the
  decoder is proved to invert it. `Decimal` (decimal.dfy) is the integer
  text that framing uses.
- **Sorted set and its B+tree** (`SortedSets`, sorted_set.dfy, and
  `OrderedTree`, bplustree.dfy). The tree is modelled by its in-order
  sequence of (score, member) entries. The sorted set is that tree kept in
  step with a member → score index.
- **SimpleSet** (`SimpleSets`, simple_set.dfy): a named set whose `Add`
  and `Rem` count what they changed.
- **Bloom filter** (`BloomFilter`, bloom.dfy): a bit sequence with k probe
  positions from double hashing.
- **Keyspace commands** (`Keyspace`, keyspace.dfy): PING, SET, GET, DEL,
  EXISTS, EXPIRE and TTL over a key → (value, optional expiry) map, plus the
  dispatch switch. The current time `now`, in milliseconds, is a parameter.

The sketch and the sorted-set commands are modelled from their Go
implementations. The other five parts are modelled abstractly, by the
behaviour their Go tests fix, and the recorded test vectors are proved as
lemmas about that abstract model.

Other modelling choices:

- Hash functions, `strconv.ParseFloat` and `%f` are function-valued
  parameters.
- The Bloom filter's bits-per-entry is a real parameter.
- `readBulkString` and `readArray` return an optional result: `None` is RESP2's null bulk string `$-1\r\n` or null array `*-1\r\n`, which the reply shapes `Null` and `NullArray` encode.
- Bytes are modelled as `char`. Every frame in the tests is ASCII.
- Go's global stores are threaded through the operations as explicit state.

## Model

| member | source | states |
|---|---|---|
| CountMinSketch.CreateCMS | internal/data_structure/cms.go:22-35 | the sketch records w and d and holds d rows of w counters, all zero |
| CountMinSketch.SatAdd | internal/data_structure/cms.go:64-69 | the saturating add equals min(x + v, MaxUint32) and never decreases the counter, so it never wraps |
| CountMinSketch.Col | internal/data_structure/cms.go:62 | the column `hash mod width` is below the width whenever the width is non-zero |
| CountMinSketch.Count | internal/data_structure/cms.go:81-97 | the estimate is at most every counter the item maps to and equal to one of them; it is MaxUint32 when there are no rows |
| CountMinSketch.Bumped | internal/data_structure/cms.go:58-70 | the sketch after IncrBy's loop keeps its width and depth and stays indexable (its cells: BumpedCells) |
| CountMinSketch.BumpedCells | internal/data_structure/cms.go:58-70 | after IncrBy, only cell (i, hash(item,i) mod width) of each row i changes, by the saturating add; no counter decreases |
| CountMinSketch.IncrBy | internal/data_structure/cms.go:54-77 | the loop leaves exactly the bumped sketch, and the value it returns equals Count on the updated sketch |
| CountMinSketch.CountLowerBound | internal/data_structure/cms.go:54-97 | one-sided error: after any sequence of increments, Count(item) is at least min(total added for item, MaxUint32) |
| CountMinSketch.IncrByEstimate | internal/data_structure/cms.go:54-77 | one IncrBy raises the item's estimate to at least min(old estimate + value, MaxUint32) |
| CountMinSketch.CreateCMSVector | internal/data_structure/cms_test.go:9-20 | CreateCMS(100, 5) has width 100, depth 5, 5 rows of 100 counters, and a zero first counter |
| CountMinSketch.FirstIncrementVector | internal/data_structure/cms_test.go:43-45 | after IncrBy(item1, 5), Count(item1) >= 5 for any hash |
| CountMinSketch.AccumulatedIncrementVector | internal/data_structure/cms_test.go:47-48 | after a further +10, Count(item1) >= 15 |
| CountMinSketch.SecondItemVector | internal/data_structure/cms_test.go:50-51 | a separately incremented item2 has Count >= 3 |
| CountMinSketch.RepeatedIncrement | internal/data_structure/cms_test.go:56-60 | n unit increments of an item, after increments of other items, give Count >= n |
| CountMinSketch.RepeatedIncrementVector | internal/data_structure/cms_test.go:56-60 | 1000 unit increments of another_item after the earlier calls give Count >= 1000 |
| SortedSetCommands.ZAdd | internal/core/command_sorted_set.go:12-44 | fewer than 3 args gives the arity error with the store untouched; an odd pair count gives the pair-count error before any set is created; otherwise the key is present afterwards and no other key changes |
| SortedSetCommands.ApplyPairs | internal/core/command_sorted_set.go:30-43 | the pair loop keeps the sorted set valid with its degree, and replies either the score error or the running count plus one per remaining pair |
| SortedSetCommands.ZAddSucceeds | internal/core/command_sorted_set.go:24-43 | when all n scores parse, the reply is integer n, duplicates included, and the key holds the stored or new set with every pair applied left to right |
| SortedSetCommands.ZAddFailsAt | internal/core/command_sorted_set.go:24-36 | when pair k is the first bad score, the reply is the score error, but the key exists and pairs 0..k-1 are already applied |
| SortedSetCommands.ZAddLastOccurrenceWins | internal/core/command_sorted_set.go:30-43 | after a successful ZADD, a member holds the score of its last occurrence in the arguments |
| SortedSetCommands.ZAddPartialExample | internal/core/command_sorted_set.go:24-36 | concretely, `ZADD z 1.5 a oops b` on an empty store errors yet leaves z = {a: 1.5} |
| SortedSetCommands.ZScore | internal/core/command_sorted_set.go:46-60 | 2 args are required; the reply is nil exactly when the key or the member is absent, and otherwise the formatted stored score |
| SortedSetCommands.ZScoreAfterZAdd | internal/core/command_sorted_set.go:12-60 | ZSCORE returns the score a one-pair ZADD just stored |
| SortedSetCommands.ZRank | internal/core/command_sorted_set.go:62-73 | 2 args are required; the reply is nil exactly when the key is absent, and for a present key always an integer >= -1 |
| SortedSetCommands.ZRankAbsentMember | internal/core/command_sorted_set.go:66-72 | on an existing key, an absent member gets integer -1, not nil |
| SortedSetCommands.ZRankIsCountLess | internal/core/command_sorted_set.go:71-72 | the rank of a present member is the number of entries ordered before its own |
| SortedSetCommands.ZRankOrder | internal/core/command_sorted_set.go:71-72 | two members' ranks compare as their (score, member) entries do, in both directions |
| SortedSetCommands.AddAllLastWins | internal/core/command_sorted_set.go:31-42 | applying pairs in order, the last pair naming a member decides its score |
| SortedSetCommands.AddAllUntouched | internal/core/command_sorted_set.go:31-42 | members named by no pair keep their presence and score |
| Resp.ReadSimpleString | internal/core/resp_test.go:20-28 | a successful read consumes part of the buffer and yields CR-free text |
| Resp.ReadInt64 | internal/core/resp_test.go:59-74 | a successful read consumes part of the buffer and yields a value within int64 |
| Resp.ReadBulkString | internal/core/resp_test.go:106-122 | a successful read consumes part of the buffer, more bytes than the payload it returns; `$-1\r\n` is the null bulk string (None) and any other negative length is a protocol error |
| Resp.ReadArray | internal/core/resp_test.go:154-169 | a successful read consumes part of the buffer and every element it returns is a decodable value; `*-1\r\n` is the null array (None) and any other negative count is a protocol error |
| Resp.DecodeOne | internal/core/resp_test.go:163-169 | decoding by the leading sigil consumes part of the buffer and yields a decodable value |
| Resp.ReadElems | internal/core/resp_test.go:154-169 | reading `count` elements yields exactly `count` decodable values within the buffer |
| Resp.Encode | internal/core/resp_test.go:20-169 | every frame is at least three bytes and starts with the sigil of its shape, the byte DecodeOne dispatches on |
| Resp.FrameEnds | internal/core/resp_test.go:20-169 | every frame ends with CRLF, an array with its last element's or, when empty, its header's |
| Resp.DecodeEncode | internal/core/resp_test.go:20-169 | every decodable value (null bulk string and null array included), encoded and followed by any bytes, decodes back to itself and consumes exactly its frame |
| Resp.ArrayRoundTrip | internal/core/resp_test.go:154-169 | readArray of an encoded array returns the elements and consumes the whole frame, whatever follows it |
| Resp.BulkRoundTrip | internal/core/resp_test.go:106-122 | readBulkString of an encoded bulk string returns it and consumes the whole frame |
| Resp.DecodeEncodeAll | internal/core/resp_test.go:154-169 | consecutive encoded elements decode in order, and the consumed counts add up |
| Resp.RequestRoundTrip | internal/core/resp_test.go:154-160 | a request's frame decodes to an array of |args| elements, element i being the bulk string args[i], and consumes the whole frame |
| Resp.SimpleStringVector | internal/core/resp_test.go:20-28 | readSimpleString("+OK\r\n") = ("OK", 5) |
| Resp.Int64Vectors | internal/core/resp_test.go:59-74 | readInt64(":12345\r\n") = (12345, 8) and readInt64(":-12345\r\n") = (-12345, 9) |
| Resp.BulkStringVectors | internal/core/resp_test.go:106-122 | readBulkString gives ("foobar", 12) for "$6\r\nfoobar\r\n" and ("", 6) for "$0\r\n\r\n" |
| Resp.ArrayOfStringsVector | internal/core/resp_test.go:154-160 | readArray of three bulk strings yields foo, bar, baz in order and consumes 31 bytes |
| Resp.ArrayWithMixedTypesVector | internal/core/resp_test.go:163-169 | readArray decodes each element by its sigil; the integer stays an integer, and 28 bytes are consumed |
| Resp.NullVectors | internal/core/resp_test.go:93-190 | the five-byte frames `$-1\r\n` and `*-1\r\n` decode to the null bulk string and the null array (section "Bulk strings" and "Arrays" of RESP2; no recorded vector) |
| Decimal.ParseFormat | internal/core/resp_test.go:59-74 | parsing the decimal text of any integer gives the integer back |
| OrderedTree.NewBPlusTree | internal/data_structure/bplustree_test.go:9-19 | a new tree records its degree and holds no entries |
| OrderedTree.Add | internal/data_structure/bplustree_test.go:21-43 | adding keeps the entries in order, and the entries afterwards are the old ones plus the new one |
| OrderedTree.Delete | internal/data_structure/sorted_set_test.go:34-41 | deleting keeps the order and removes exactly the given entry |
| OrderedTree.Score | internal/data_structure/bplustree_test.go:21-43 | found exactly when some entry has the member, and then the reported score belongs to an entry of that member |
| OrderedTree.GetRank | internal/data_structure/bplustree_test.go:45-62 | -1 exactly when no entry has the member; otherwise a position holding the member |
| OrderedTree.PositionIsCountLess | internal/data_structure/bplustree_test.go:45-62 | in a sorted sequence, an entry's position equals the number of entries ordered before it |
| OrderedTree.PositionOrder | internal/data_structure/bplustree_test.go:45-62 | positions compare as the entries do, in both directions |
| OrderedTree.SortedUnique | internal/data_structure/bplustree_test.go:45-62 | a sorted sequence is determined by its elements, so insertion order cannot change the result |
| OrderedTree.NewBPlusTreeVector | internal/data_structure/bplustree_test.go:9-19 | NewBPlusTree(3) has degree 3 and no entries |
| OrderedTree.AddAndScoreVector | internal/data_structure/bplustree_test.go:21-43 | after adding 10 member1, 20 member2 and 5 member3, Score gives each its score, and a never-added member is not found |
| OrderedTree.GetRankVector | internal/data_structure/bplustree_test.go:45-62 | after adding A=10, B=20, C=5, D=15 the ranks are C 0, A 1, D 2, B 3, and an absent member gets -1 |
| SortedSets.NewSortedSet | internal/data_structure/sorted_set_test.go:9-18 | a new sorted set records the degree and has an empty index and an empty tree |
| SortedSets.Add | internal/data_structure/sorted_set_test.go:20-42 | an upsert that replies 1 for an insert and an update alike; the index maps the member to the new score, and the tree holds no other score for it |
| SortedSets.GetScore | internal/data_structure/sorted_set_test.go:44-61 | found exactly when the member is indexed, and then the indexed score |
| SortedSets.GetRank | internal/data_structure/sorted_set_test.go:63-79 | -1 for an absent member |
| SortedSets.GetScoreMatchesTree | internal/data_structure/sorted_set_test.go:34-41 | the index lookup and the tree scan report the same presence and score |
| SortedSets.TreeDeterminedByIndex | internal/data_structure/sorted_set_test.go:63-79 | two valid sets with the same index have the same tree entries |
| SortedSets.RankIsCountLess | internal/data_structure/sorted_set_test.go:63-79 | a member's rank is the number of entries ordered before its own |
| SortedSets.RankOrder | internal/data_structure/sorted_set_test.go:63-79 | ranks follow ascending score with ties broken by member, in both directions; distinct members get distinct ranks |
| SortedSets.NewSortedSetVector | internal/data_structure/sorted_set_test.go:9-18 | NewSortedSet(3) has degree 3 and an empty index |
| SortedSets.AddVector | internal/data_structure/sorted_set_test.go:20-42 | both inserts and the update reply 1, and afterwards memberA has score 15 in the index and in the tree |
| SortedSets.GetScoreVector | internal/data_structure/sorted_set_test.go:44-61 | member1 and member2 report 10 and 20; an absent member is not found |
| SortedSets.GetRankVector | internal/data_structure/sorted_set_test.go:63-79 | ranks C 0, A 1, D 2, B 3 for out-of-order inserts; an absent member gets -1 |
| SimpleSets.NewSimpleSet | internal/data_structure/simple_set_test.go:7-22 | a new set records its key and is empty |
| SimpleSets.Add | internal/data_structure/simple_set_test.go:24-57 | afterwards the set is the old set plus the named members; the key is kept |
| SimpleSets.AddCount | internal/data_structure/simple_set_test.go:28-49 | Add's reply is the number of distinct named members that were not yet present |
| SimpleSets.Rem | internal/data_structure/simple_set_test.go:59-91 | afterwards the set is the old set minus the named members; the key is kept |
| SimpleSets.RemCount | internal/data_structure/simple_set_test.go:66-81 | Rem's reply is the number of distinct named members that were present |
| SimpleSets.AddCountIsGrowth | internal/data_structure/simple_set_test.go:24-57 | Add's reply equals the growth in the set's size |
| SimpleSets.RemCountIsShrinkage | internal/data_structure/simple_set_test.go:59-91 | Rem's reply equals the shrinkage in the set's size |
| SimpleSets.AddIdempotent | internal/data_structure/simple_set_test.go:33-37 | repeating an Add changes nothing and replies 0 |
| SimpleSets.RemUndoesAdd | internal/data_structure/simple_set_test.go:59-91 | removing what was just added leaves the other members, and the reply counts every named member |
| SimpleSets.IsMember | internal/data_structure/simple_set_test.go:93-116 | 1 exactly when the member is present, 0 exactly when it is absent |
| SimpleSets.Members | internal/data_structure/simple_set_test.go:118-148 | the listing holds exactly the set's members, without duplicates, as many as the set's size |
| SimpleSets.SingletonListing | internal/data_structure/simple_set_test.go:84-90 | a duplicate-free listing of a one-member set is that member alone |
| SimpleSets.NewSimpleSetVector | internal/data_structure/simple_set_test.go:7-22 | NewSimpleSet("test_key") has that key and no members |
| SimpleSets.AddVector | internal/data_structure/simple_set_test.go:24-57 | the recorded Adds reply 1, 0, 3, 2 and leave member1..member6 |
| SimpleSets.RemVector | internal/data_structure/simple_set_test.go:59-91 | the recorded Rems reply 1, 0, 2 and leave only member4 |
| SimpleSets.IsMemberVector | internal/data_structure/simple_set_test.go:93-116 | IsMember gives 0 on an empty set, then 1, 1, 0 after adding member1 and member2 |
| SimpleSets.MembersVector | internal/data_structure/simple_set_test.go:118-148 | a new set lists nothing; after adding three members it holds exactly those three |
| SimpleSets.EdgeCasesVector | internal/data_structure/simple_set_test.go:150-174 | the empty string is added and removed with count 1, and a member repeated in one call is stored once |
| BloomFilter.Create | internal/data_structure/bloom_test.go:37-48 | records entries and error rate; the bit count is whole 64-bit words covering entries × bits-per-entry; bytes = bits / 8; hashes = ceil(bits-per-entry × ln 2); all bits clear |
| BloomFilter.Position | internal/data_structure/bloom_test.go:29-35 | every probe position lies within the bit array |
| BloomFilter.AddHash | internal/data_structure/bloom_test.go:29-35 | only the bit array changes; afterwards a bit is set exactly when it was set before or is one of the k probe positions of the hash |
| BloomFilter.ExistHash | internal/data_structure/bloom_test.go:29-35 | true exactly when all k probe positions of the hash are set |
| BloomFilter.Add | internal/data_structure/bloom_test.go:9-19 | only the bit array changes; afterwards a bit is set exactly when it was set before or is one of the item's k probe positions, so the item is reported present |
| BloomFilter.Exist | internal/data_structure/bloom_test.go:9-19 | true exactly when all k probe positions of the item's hash are set |
| BloomFilter.AddHashThenExistHash | internal/data_structure/bloom_test.go:29-35 | after AddHash(h), ExistHash(h) holds |
| BloomFilter.ExistHashMonotone | internal/data_structure/bloom_test.go:9-19 | further AddHash calls never make a present hash absent |
| BloomFilter.NoFalseNegatives | internal/data_structure/bloom_test.go:9-19 | every item of any sequence of Adds is reported present afterwards |
| BloomFilter.AddHashIdempotent | internal/data_structure/bloom_test.go:29-35 | adding the same hash twice equals adding it once |
| BloomFilter.CreateVector | internal/data_structure/bloom_test.go:37-48 | 100 entries at about 9.585 bits per entry give 960 bits, 120 bytes and 7 hashes |
| BloomFilter.ExistVector | internal/data_structure/bloom_test.go:9-16 | after adding a and b to a 10-entry filter, both exist, and entries and error are recorded |
| BloomFilter.AddHashVector | internal/data_structure/bloom_test.go:29-35 | AddHash of CalcHash("abcdef") makes both ExistHash and Exist("abcdef") true |
| Keyspace.NewObj | internal/core/executor_test.go:144-151 | a negative ttl means no expiry; otherwise the object expires ttl ms after now |
| Keyspace.SetExpiry | internal/core/executor_test.go:36-38 | re-arms an existing key's expiry at now + delta and leaves a missing key alone |
| Keyspace.Get | internal/core/executor_test.go:82-98 | a value is returned exactly when the key is live; an expired key is removed on the way |
| Keyspace.DelKeys | internal/core/executor_test.go:100-113 | no named key stays live, no key is added or changed, and unnamed keys stay |
| Keyspace.Ping | internal/core/executor_test.go:54-67 | 0 args gives PONG, 1 arg echoes it as bulk, 2 or more args give an error, each in both directions |
| Keyspace.CmdSet | internal/core/executor_test.go:69-80 | exactly 2 args are required; the key is then live with the new value, the reply is OK, and other keys stay |
| Keyspace.CmdGet | internal/core/executor_test.go:82-98 | exactly 1 arg is required; the reply is nil exactly when the key is not live, and otherwise the stored value |
| Keyspace.CmdDel | internal/core/executor_test.go:100-113 | no args gives the arity error; otherwise exactly the live keys named are removed, and the reply is how many there were, each counted once even when named twice |
| Keyspace.CmdExists | internal/core/executor_test.go:33-52 | no args gives the arity error; otherwise the integer reply counts the argument positions naming a live key, so a repeated live key counts each time |
| Keyspace.CountLiveIsSetSize | internal/core/executor_test.go:33-45 | for distinct arguments, EXISTS counts exactly the set of live keys among them |
| Keyspace.CountLiveFrom | internal/core/executor_test.go:33-45 | from any position on, the count equals the number of later positions whose argument names a live key |
| Keyspace.ExistsCountsPositions | internal/core/executor_test.go:33-45 | for any non-empty arguments, repeats included, EXISTS replies with the size of { i : args[i] is live } |
| Keyspace.DelCountsWhatExistsCounts | internal/core/executor_test.go:100-108 | for distinct arguments, DEL removes as many keys as EXISTS would count |
| Keyspace.DelRemovesLiveAmong | internal/core/executor_test.go:100-113 | for any arguments, repeats included, DEL leaves the store minus the live keys named and replies with how many those are |
| Keyspace.DelCountIsShrinkage | internal/core/executor_test.go:100-108 | DEL's reply equals the number of keys that left the store |
| Keyspace.DelLeavesOthers | internal/core/executor_test.go:100-113 | DEL leaves every key it does not name as it was |
| Keyspace.CmdExpire | internal/core/executor_test.go:115-131 | exactly 2 args are required; the reply is OK exactly when the seconds parse as a non-negative int64, and otherwise the value error with the store unchanged; on OK a live key keeps its value and expires that many seconds from now, a key that is not live stays dead from then on, and other keys stay |
| Keyspace.CmdTtl | internal/core/executor_test.go:133-176 | not-exist exactly when the key is not live; no-expire for a live key without expiry; otherwise the whole seconds left, rounded down |
| Keyspace.ExpireThenTtl | internal/core/executor_test.go:115-170 | EXPIRE k s (s > 0), then TTL k at the same instant, answers s |
| Keyspace.ExpireNeverRevives | internal/core/executor_test.go:36-45 | EXPIRE on a key that is not live leaves GET answering nil and TTL answering not-exist, then and later |
| Keyspace.ForcedExpiry | internal/core/executor_test.go:163-169 | after an expiry forced into the past, TTL answers not-exist and GET answers nil and removes the key |
| Keyspace.TtlOfFiveSeconds | internal/core/executor_test.go:150-161 | a 5000 ms expiry read within the next second gives 4 or 5 |
| Keyspace.SetThenGet | internal/core/executor_test.go:69-98 | GET returns the value that SET wrote, at any later time |
| Keyspace.SetOtherThenGet | internal/core/executor_test.go:69-98 | a SET of another key does not change GET of this key |
| Keyspace.Execute | internal/core/executor_test.go:303-327 | names outside the seven known commands get the not-found error, and the store is left alone |
| Keyspace.UnknownCommandBytes | internal/core/executor_test.go:273-287 | an unknown command reaches the client as the bytes `-CMD NOT FOUND\r\n` |
| Keyspace.ExistsVector | internal/core/executor_test.go:33-52 | with foo live, baz expired and notfound absent, EXISTS gives 1; with no args it gives the arity error |
| Keyspace.PingVector | internal/core/executor_test.go:54-67 | PING gives PONG, then echoes hello, then errors on two args |
| Keyspace.SetVector | internal/core/executor_test.go:69-80 | SET foo bar replies OK; SET foo gives the arity error |
| Keyspace.GetVector | internal/core/executor_test.go:82-98 | GET foo gives bar, GET notfound gives nil, and GET with no args gives the arity error |
| Keyspace.DelVector | internal/core/executor_test.go:100-113 | DEL foo baz notfound removes 2; DEL with no args gives the arity error |
| Keyspace.ExpireVector | internal/core/executor_test.go:115-131 | EXPIRE foo 10 replies OK, one arg gives the arity error, and -1 gives the value error |
| Keyspace.TtlVector | internal/core/executor_test.go:133-176 | TTL gives not-exist for a missing or expired key, no-expire for foo, and the arity error with no args |
| Keyspace.ExecuteVector | internal/core/executor_test.go:192-301 | the dispatcher answers PING with +PONG, runs SET and then GET of key, and answers UNKNOWN with -CMD NOT FOUND |

## Left out

- murmur3 (`calcHash`) and the Bloom filter's `CalcHash` are function parameters. Assertions that depend on concrete hash values are not modelled: `Count("non_existent_item") == 0` (cms_test.go:54) and `Exist("c")`/`Exist("d")` being false (bloom_test.go:17-18). `CalcHash` is deterministic by construction, because it is a function.
- Floating point is not modelled:
  - `CalcCMSDim` is left out entirely.
  - The Bloom sizing `-ln(p)/ln(2)^2` is summarised by its result, the bits-per-entry parameter.
  - `strconv.ParseFloat` and the `%f` of ZSCORE are parameters.
  - Scores are `real`, so NaN and infinities are not modelled.
- The io.Writer plumbing, write-error propagation, global stores, locking and concurrency are left out. State is threaded explicitly.
- Only RESP replies whose bytes a test fixes are spelled out. The other reply bytes come from the RESP2 encoding in `Resp.Encode`, because the server's encoder is not part of this model.
- B+tree node layout and splitting are not modelled. The tree is modelled by its in-order entry sequence, and Score and GetRank are scans of that sequence.
- int64 limits apply only where the decoder and EXPIRE check them. Go's overflow of `now + delta` is not modelled.
- SET options (EX, PX, NX, ...) are not modelled. SET takes exactly two arguments.
- The TTL reply constants are abstracted. They are modelled by the Redis convention: -2 for a missing or expired key, -1 for no expiry.
- TTL truncates the remaining milliseconds to whole seconds; executor_test.go:150-161 bounds the reply between 4 and 5, which truncation meets.
- `EXPIRE k -1` is the value error, as executor_test.go:127-130 requires. `Keyspace.ForcedExpiry` states the forced-expiry property through `SetExpiry` with a negative delta, which is how the test forces it.
- EXPIRE on a key that is not live replies OK; it leaves a missing key missing and deletes an expired one, as GET does, so the old value never comes back. The handler is abstracted, and executor_test.go never exercises that case.
- Lazy deletion of an expired key happens in GET. EXPIRE drops an expired key it names. EXISTS and TTL only read the store, and DEL removes only live keys.
- SortedSetCommands.ZAdd: the `ret != 1` error branch (command_sorted_set.go:38-40) is unreachable because `SortedSet.Add` always replies 1 (`SortedSets.Add`), so it is not modelled.
- SortedSetCommands.ZScore: returns only the reply. It cannot create a key, because it produces no store.
- SortedSetCommands.ZRank: returns only the reply, for the same reason.
- SimpleSets.Members: the listing order is unspecified (Go map iteration order), so only contents, distinctness and length are stated.
- SimpleSets.Add: the function states only the new contents and `r.1 >= 0`. The exact count is in `SimpleSets.AddCount`.
- SimpleSets.Rem: the same, with the exact count in `SimpleSets.RemCount`.
- CountMinSketch.Bumped: states only the shape. The per-cell behaviour is in `CountMinSketch.BumpedCells`.
- CountMinSketch.IncrBy: requires a non-zero width when depth > 0. Go panics on `% 0` there.
- CountMinSketch.Count: requires a non-zero width when depth > 0, for the same `% 0` panic.
- BloomFilter.Create: requires entries >= 0 and bits-per-entry > 0. A zero-entry filter has no bits, so Add and Exist are modelled only for a filter with at least one bit.

=== FILE: bloom.dfy ===
// Bloom filter: a bit array of `bits` cells and `hashes` probe positions per
// item, derived by double hashing from a pair (a, b). The seeded hash that
// produces the pair is a parameter; the float sizing formula -ln(p)/ln(2)^2
// is summarised by its result, the bits per entry.

module BloomFilter {
  const TwoTo64: int := 0x1_0000_0000_0000_0000

  /** The value of Go's math.Ln2. */
  const Ln2: real := 0.6931471805599453

  type u64 = x: int | 0 <= x < TwoTo64

  datatype HashValue = HashValue(a: u64, b: u64)

  /** CalcHash: the two base hashes of an item. */
  type HashFn = string -> HashValue

  datatype Bloom = Bloom(entries: int, error: real, hashes: nat, bits: nat, bytes: nat, bf: seq<bool>)

  /** The bit array has the recorded length, and that length is not zero
      (every probe position is taken modulo it). */
  predicate Valid(b: Bloom)
  {
    |b.bf| == b.bits && b.bits > 0
  }

  function Ceil(x: real): (r: int)
    ensures x <= r as real < x + 1.0
  {
    -((-x).Floor)
  }

  /** The number of 64-bit words that holds `need` bits. */
  function WholeWords(need: real): (words: nat)
    requires need >= 0.0
    ensures need <= (words * 64) as real < need + 64.0
  {
    var words := Ceil(need / 64.0);
    assert need / 64.0 <= words as real < need / 64.0 + 1.0;
    words
  }

  /** The number of hash functions: bits per entry times ln 2, rounded up. */
  function HashCount(bitsPerEntry: real): (k: nat)
    requires bitsPerEntry > 0.0
    ensures bitsPerEntry * Ln2 <= k as real < bitsPerEntry * Ln2 + 1.0 && k >= 1
  {
    Ceil(bitsPerEntry * Ln2)
  }

  lemma WordSizes(words: nat)
    ensures (words * 64) % 64 == 0
    ensures (words * 64) / 8 == words * 8
  {
  }

  lemma NeedBounds(entries: int, bitsPerEntry: real)
    requires entries >= 0 && bitsPerEntry > 0.0
    ensures entries as real * bitsPerEntry >= 0.0
    ensures entries > 0 ==> entries as real * bitsPerEntry > 0.0
  {
  }

  /** CreateBloomFilter(entries, errorRate), given the bits per entry that
      the error rate asks for: the bit count is rounded up to whole 64-bit
      words and the hash count is rounded up too. */
  function Create(entries: int, errorRate: real, bitsPerEntry: real): (b: Bloom)
    requires entries >= 0 && bitsPerEntry > 0.0
    ensures b.entries == entries && b.error == errorRate
    ensures b.bits % 64 == 0 && b.bytes * 8 == b.bits
    ensures b.bits as real >= entries as real * bitsPerEntry
    ensures b.bits as real < entries as real * bitsPerEntry + 64.0
    ensures b.hashes as real >= bitsPerEntry * Ln2 && b.hashes >= 1
    ensures |b.bf| == b.bits && forall p :: 0 <= p < |b.bf| ==> !b.bf[p]
    ensures entries > 0 ==> Valid(b)
  {
    var need := entries as real * bitsPerEntry;
    NeedBounds(entries, bitsPerEntry);
    var words := WholeWords(need);
    var bits := words * 64;
    WordSizes(words);
    Bloom(entries, errorRate, HashCount(bitsPerEntry), bits, bits / 8, seq(bits, _ => false))
  }

  /** The i-th probe position: a + i*b in wrapping 64-bit arithmetic,
      reduced modulo the bit count. */
  function Position(h: HashValue, i: nat, bits: nat): (p: nat)
    requires bits > 0
    ensures p < bits
  {
    ((h.a + i * h.b) % TwoTo64) % bits
  }

  /** Sets the probe positions i .. k-1. */
  function SetProbes(bf: seq<bool>, h: HashValue, i: nat, k: nat): (r: seq<bool>)
    requires |bf| > 0
    ensures |r| == |bf|
    ensures forall p :: 0 <= p < |r| ==>
      (r[p] <==> bf[p] || exists j :: i <= j < k && Position(h, j, |bf|) == p)
    decreases k - i
  {
    if i >= k then bf
    else SetProbes(bf[Position(h, i, |bf|) := true], h, i + 1, k)
  }

  /** Whether the probe positions i .. k-1 are all set. */
  function ProbesSet(bf: seq<bool>, h: HashValue, i: nat, k: nat): (r: bool)
    requires |bf| > 0
    ensures r <==> forall j :: i <= j < k ==> bf[Position(h, j, |bf|)]
    decreases k - i
  {
    if i >= k then true
    else if !bf[Position(h, i, |bf|)] then false
    else ProbesSet(bf, h, i + 1, k)
  }

  /** AddHash(h): sets the item's k probe positions and no other bit. */
  function AddHash(b: Bloom, h: HashValue): (r: Bloom)
    requires Valid(b)
    ensures Valid(r)
    ensures r == b.(bf := r.bf)
    ensures forall p :: 0 <= p < |b.bf| && b.bf[p] ==> r.bf[p]
    ensures forall p :: 0 <= p < |b.bf| ==>
      (r.bf[p] <==> b.bf[p] || exists j :: 0 <= j < b.hashes && Position(h, j, b.bits) == p)
  {
    b.(bf := SetProbes(b.bf, h, 0, b.hashes))
  }

  /** ExistHash(h): true iff all k probe positions are set. */
  function ExistHash(b: Bloom, h: HashValue): (r: bool)
    requires Valid(b)
    ensures r <==> forall j :: 0 <= j < b.hashes ==> b.bf[Position(h, j, b.bits)]
  {
    ProbesSet(b.bf, h, 0, b.hashes)
  }

  /** Add(item): only the bits change, exactly the item's probe positions
      are set on top of the old ones, and the item is reported present
      afterwards. */
  function Add(b: Bloom, hash: HashFn, item: string): (r: Bloom)
    requires Valid(b)
    ensures Valid(r) && r == b.(bf := r.bf)
    ensures forall p :: 0 <= p < |b.bf| && b.bf[p] ==> r.bf[p]
    ensures forall p :: 0 <= p < |b.bf| ==>
      (r.bf[p] <==> b.bf[p] || exists j :: 0 <= j < b.hashes && Position(hash(item), j, b.bits) == p)
    ensures Exist(r, hash, item)
  {
    AddHashThenExistHash(b, hash(item));
    AddHash(b, hash(item))
  }

  /** Exist(item): true iff every probe position of the item's hash is set. */
  function Exist(b: Bloom, hash: HashFn, item: string): (r: bool)
    requires Valid(b)
    ensures r <==> forall j :: 0 <= j < b.hashes ==> b.bf[Position(hash(item), j, b.bits)]
  {
    ExistHash(b, hash(item))
  }

  /** Adds the items in order. */
  function AddAll(b: Bloom, hash: HashFn, items: seq<string>): (r: Bloom)
    requires Valid(b)
    ensures Valid(r) && r == b.(bf := r.bf)
    decreases |items|
  {
    if |items| == 0 then b else AddAll(Add(b, hash, items[0]), hash, items[1..])
  }

  // -----------------------------------------------------------------------
  // No false negatives
  // -----------------------------------------------------------------------

  /** After AddHash(h), ExistHash(h) holds. */
  lemma AddHashThenExistHash(b: Bloom, h: HashValue)
    requires Valid(b)
    ensures ExistHash(AddHash(b, h), h)
  {
    var r := AddHash(b, h);
    forall j | 0 <= j < b.hashes
      ensures r.bf[Position(h, j, b.bits)]
    {
      var p := Position(h, j, b.bits);
      assert exists j' :: 0 <= j' < b.hashes && Position(h, j', |b.bf|) == p;
    }
  }

  /** Setting more bits never turns a present item absent. */
  lemma ExistHashMonotone(b: Bloom, h: HashValue, h': HashValue)
    requires Valid(b) && ExistHash(b, h)
    ensures ExistHash(AddHash(b, h'), h)
  {
  }

  /** Every item of a sequence of Adds is reported present afterwards. */
  lemma {:induction false} NoFalseNegatives(b: Bloom, hash: HashFn, items: seq<string>, x: string)
    requires Valid(b) && x in items
    ensures Exist(AddAll(b, hash, items), hash, x)
    decreases |items|
  {
    var b' := Add(b, hash, items[0]);
    if items[0] == x {
      AddHashThenExistHash(b, hash(x));
      StaysPresent(b', hash, items[1..], x);
    } else {
      NoFalseNegatives(b', hash, items[1..], x);
    }
  }

  /** An item already present stays present through further Adds. */
  lemma {:induction false} StaysPresent(b: Bloom, hash: HashFn, items: seq<string>, x: string)
    requires Valid(b) && Exist(b, hash, x)
    ensures Exist(AddAll(b, hash, items), hash, x)
    decreases |items|
  {
    if |items| > 0 {
      ExistHashMonotone(b, hash(x), hash(items[0]));
      StaysPresent(Add(b, hash, items[0]), hash, items[1..], x);
    }
  }

  /** Adding the same hash twice changes nothing the second time. */
  lemma AddHashIdempotent(b: Bloom, h: HashValue)
    requires Valid(b)
    ensures AddHash(AddHash(b, h), h) == AddHash(b, h)
  {
    var once := AddHash(b, h);
    var twice := AddHash(once, h);
    assert twice.bf == once.bf;
  }

  // -----------------------------------------------------------------------
  // The recorded scenarios
  // -----------------------------------------------------------------------

  /** 100 entries at 1% error: about 9.585 bits per entry give 960 bits,
      120 bytes and 7 hashes. */
  lemma CreateVector(bitsPerEntry: real)
    requires 9.58 <= bitsPerEntry <= 9.59
    ensures var b := Create(100, 0.01, bitsPerEntry);
      && b.entries == 100 && b.error == 0.01
      && b.bits == 960 && b.bytes == 120 && b.hashes == 7
  {
    var b := Create(100, 0.01, bitsPerEntry);
    assert 14.0 < 100.0 * bitsPerEntry / 64.0 <= 15.0;
    assert 6.0 < bitsPerEntry * Ln2 <= 7.0;
  }

  /** Items added to a 10-entry filter are reported present. */
  lemma ExistVector(bitsPerEntry: real, hash: HashFn)
    requires 9.58 <= bitsPerEntry <= 9.59
    ensures var b := Add(Add(Create(10, 0.01, bitsPerEntry), hash, "a"), hash, "b");
      && b.entries == 10 && b.error == 0.01
      && Exist(b, hash, "a") && Exist(b, hash, "b")
  {
    var b0 := Create(10, 0.01, bitsPerEntry);
    var b1 := Add(b0, hash, "a");
    AddHashThenExistHash(b0, hash("a"));
    ExistHashMonotone(b1, hash("a"), hash("b"));
    AddHashThenExistHash(b1, hash("b"));
  }

  /** AddHash of an item's hash makes both ExistHash and Exist true. */
  lemma AddHashVector(bitsPerEntry: real, hash: HashFn)
    requires 9.58 <= bitsPerEntry <= 9.59
    ensures var b := AddHash(Create(10, 0.01, bitsPerEntry), hash("abcdef"));
      && ExistHash(b, hash("abcdef")) && Exist(b, hash, "abcdef")
  {
    AddHashThenExistHash(Create(10, 0.01, bitsPerEntry), hash("abcdef"));
  }
}

=== FILE: bplustree.dfy ===
/** The ordered tree behind a sorted set, modelled by its in-order sequence
    of (score, member) entries. Entries are ordered by score, ties broken by
    member in byte-wise lexical order; node layout and splitting are not part
    of this model, only the order they maintain. */
module OrderedTree {

  /** Byte-wise lexical order on strings (Go's `<` on strings). */
  predicate LexLess(a: string, b: string)
  {
    if |a| == 0 then |b| > 0
    else if |b| == 0 then false
    else a[0] < b[0] || (a[0] == b[0] && LexLess(a[1..], b[1..]))
  }

  lemma {:induction false} LexIrreflexive(a: string)
    ensures !LexLess(a, a)
  {
    if |a| > 0 {
      LexIrreflexive(a[1..]);
    }
  }

  lemma {:induction false} LexTransitive(a: string, b: string, c: string)
    requires LexLess(a, b) && LexLess(b, c)
    ensures LexLess(a, c)
  {
    if |a| > 0 && |b| > 0 && |c| > 0 && a[0] == b[0] && b[0] == c[0] {
      LexTransitive(a[1..], b[1..], c[1..]);
    }
  }

  lemma {:induction false} LexTotal(a: string, b: string)
    requires a != b
    ensures LexLess(a, b) || LexLess(b, a)
  {
    if |a| > 0 && |b| > 0 && a[0] == b[0] {
      assert a == [a[0]] + a[1..] && b == [b[0]] + b[1..];
      LexTotal(a[1..], b[1..]);
    }
  }

  datatype Entry = Entry(score: real, member: string)

  /** The tree's total order on entries. */
  predicate Less(x: Entry, y: Entry)
  {
    x.score < y.score || (x.score == y.score && LexLess(x.member, y.member))
  }

  lemma LessIrreflexive(x: Entry)
    ensures !Less(x, x)
  {
    LexIrreflexive(x.member);
  }

  lemma LessTransitive(x: Entry, y: Entry, z: Entry)
    requires Less(x, y) && Less(y, z)
    ensures Less(x, z)
  {
    if x.score == y.score && y.score == z.score {
      LexTransitive(x.member, y.member, z.member);
    }
  }

  lemma LessTrichotomy(x: Entry, y: Entry)
    ensures x == y || Less(x, y) || Less(y, x)
  {
    if x != y && x.score == y.score {
      LexTotal(x.member, y.member);
    }
  }

  lemma LessAsymmetric(x: Entry, y: Entry)
    requires Less(x, y)
    ensures !Less(y, x)
  {
    if Less(y, x) {
      LessTransitive(x, y, x);
      LessIrreflexive(x);
    }
  }

  /** Strictly ascending, hence free of duplicate entries. */
  predicate Sorted(s: seq<Entry>)
  {
    forall i, j :: 0 <= i < j < |s| ==> Less(s[i], s[j])
  }

  datatype BPlusTree = BPlusTree(degree: int, items: seq<Entry>)

  predicate Valid(t: BPlusTree)
  {
    Sorted(t.items)
  }

  /** NewBPlusTree: an empty tree that remembers its degree. */
  function NewBPlusTree(degree: int): (t: BPlusTree)
    ensures t.degree == degree && |t.items| == 0 && Valid(t)
  {
    BPlusTree(degree, [])
  }

  /** Inserts `e` at its ordered position; an entry already present is kept
      once. */
  function InsertSorted(s: seq<Entry>, e: Entry): (r: seq<Entry>)
    requires Sorted(s)
    ensures Sorted(r)
    ensures forall x :: x in r <==> x in s || x == e
    ensures |r| == if e in s then |s| else |s| + 1
  {
    if |s| == 0 then [e]
    else if Less(e, s[0]) then
      assert forall k :: 0 <= k < |s| ==> Less(e, s[k]) by {
        forall k | 0 <= k < |s| ensures Less(e, s[k]) {
          if k > 0 {
            LessTransitive(e, s[0], s[k]);
          }
        }
      }
      assert e !in s by {
        if e in s {
          var k :| 0 <= k < |s| && s[k] == e;
          LessIrreflexive(e);
        }
      }
      [e] + s
    else if e == s[0] then s
    else
      LessTrichotomy(e, s[0]);
      var rest := InsertSorted(s[1..], e);
      assert s == [s[0]] + s[1..];
      assert e in s <==> e in s[1..];
      assert forall k :: 0 <= k < |rest| ==> Less(s[0], rest[k]) by {
        forall k | 0 <= k < |rest| ensures Less(s[0], rest[k]) {
          assert rest[k] in rest;
          if rest[k] != e {
            var m :| 0 <= m < |s[1..]| && s[1..][m] == rest[k];
            assert s[m + 1] == rest[k];
          }
        }
      }
      [s[0]] + rest
  }

  /** Add(score, member): inserts the entry in order. */
  function Add(t: BPlusTree, score: real, member: string): (r: BPlusTree)
    requires Valid(t)
    ensures Valid(r) && r.degree == t.degree
    ensures forall x :: x in r.items <==> x in t.items || x == Entry(score, member)
  {
    BPlusTree(t.degree, InsertSorted(t.items, Entry(score, member)))
  }

  /** Removes exactly the entry `e`, if present. */
  function RemoveEntry(s: seq<Entry>, e: Entry): (r: seq<Entry>)
    requires Sorted(s)
    ensures Sorted(r)
    ensures forall x :: x in r <==> x in s && x != e
  {
    if |s| == 0 then []
    else if s[0] == e then
      assert e !in s[1..] by {
        if e in s[1..] {
          var k :| 0 <= k < |s[1..]| && s[1..][k] == e;
          assert Less(s[0], s[k + 1]);
          LessIrreflexive(e);
        }
      }
      s[1..]
    else
      var rest := RemoveEntry(s[1..], e);
      assert s == [s[0]] + s[1..];
      assert forall k :: 0 <= k < |rest| ==> Less(s[0], rest[k]) by {
        forall k | 0 <= k < |rest| ensures Less(s[0], rest[k]) {
          assert rest[k] in rest;
          var m :| 0 <= m < |s[1..]| && s[1..][m] == rest[k];
          assert s[m + 1] == rest[k];
        }
      }
      [s[0]] + rest
  }

  /** Delete(score, member): removes that exact entry; the order is kept. */
  function Delete(t: BPlusTree, score: real, member: string): (r: BPlusTree)
    requires Valid(t)
    ensures Valid(r) && r.degree == t.degree
    ensures forall x :: x in r.items <==> x in t.items && x != Entry(score, member)
  {
    BPlusTree(t.degree, RemoveEntry(t.items, Entry(score, member)))
  }

  /** Position of the first entry for `member`, scanning the leaves in
      order; -1 when the member has no entry. */
  function IndexOf(s: seq<Entry>, member: string): (r: int)
    ensures -1 <= r < |s|
    ensures r == -1 <==> forall k :: 0 <= k < |s| ==> s[k].member != member
    ensures r >= 0 ==> s[r].member == member && forall k :: 0 <= k < r ==> s[k].member != member
  {
    if |s| == 0 then -1
    else if s[0].member == member then 0
    else
      var r := IndexOf(s[1..], member);
      if r == -1 then -1 else r + 1
  }

  /** Score(member): a full scan, since the tree is keyed by score. */
  function Score(t: BPlusTree, member: string): (r: (real, bool))
    ensures r.1 <==> exists k :: 0 <= k < |t.items| && t.items[k].member == member
    ensures r.1 ==> Entry(r.0, member) in t.items
  {
    var k := IndexOf(t.items, member);
    if k == -1 then (0.0, false) else (t.items[k].score, true)
  }

  /** GetRank(member): the member's 0-based position in ascending order, or
      -1 when it has no entry. */
  function GetRank(t: BPlusTree, member: string): (r: int)
    ensures r == -1 <==> forall k :: 0 <= k < |t.items| ==> t.items[k].member != member
    ensures r >= 0 ==> r < |t.items| && t.items[r].member == member
  {
    IndexOf(t.items, member)
  }

  /** The number of entries strictly before `e` in the order: the reference
      meaning of a rank. */
  function CountLess(s: seq<Entry>, e: Entry): nat
  {
    if |s| == 0 then 0 else (if Less(s[0], e) then 1 else 0) + CountLess(s[1..], e)
  }

  lemma {:induction false} CountLessNone(s: seq<Entry>, e: Entry)
    requires forall k :: 0 <= k < |s| ==> !Less(s[k], e)
    ensures CountLess(s, e) == 0
  {
    if |s| > 0 {
      CountLessNone(s[1..], e);
    }
  }

  /** In a sorted sequence, the position of an entry is the number of
      entries that precede it in the order. */
  lemma {:induction false} PositionIsCountLess(s: seq<Entry>, i: nat)
    requires Sorted(s) && i < |s|
    ensures CountLess(s, s[i]) == i
  {
    if i == 0 {
      LessIrreflexive(s[0]);
      forall k | 0 <= k < |s[1..]|
        ensures !Less(s[1..][k], s[0])
      {
        LessAsymmetric(s[0], s[k + 1]);
      }
      CountLessNone(s[1..], s[0]);
    } else {
      assert s[1..][i - 1] == s[i];
      PositionIsCountLess(s[1..], i - 1);
    }
  }

  /** Ranks agree with the entry order, in both directions. */
  lemma PositionOrder(s: seq<Entry>, i: nat, j: nat)
    requires Sorted(s) && i < |s| && j < |s|
    ensures i < j <==> Less(s[i], s[j])
  {
    if j < i {
      LessAsymmetric(s[j], s[i]);
    } else if i == j {
      LessIrreflexive(s[i]);
    }
  }

  /** Two sorted sequences with the same elements start alike. */
  lemma SortedHeads(a: seq<Entry>, b: seq<Entry>)
    requires Sorted(a) && Sorted(b) && |a| > 0 && |b| > 0
    requires forall x :: x in a <==> x in b
    ensures a[0] == b[0]
  {
    assert a[0] in a && b[0] in b;
    var k :| 0 <= k < |b| && b[k] == a[0];
    var m :| 0 <= m < |a| && a[m] == b[0];
    if k > 0 && m > 0 {
      LessAsymmetric(b[0], b[k]);
    }
  }

  lemma NonEmptyAlike(a: seq<Entry>, b: seq<Entry>)
    requires |a| > 0 && forall x :: x in a <==> x in b
    ensures |b| > 0
  {
    assert a[0] in a;
  }

  /** A sorted sequence is determined by its elements. */
  lemma {:induction false} SortedUnique(a: seq<Entry>, b: seq<Entry>)
    requires Sorted(a) && Sorted(b)
    requires forall x :: x in a <==> x in b
    ensures a == b
  {
    if |a| > 0 {
      NonEmptyAlike(a, b);
    }
    if |b| > 0 {
      NonEmptyAlike(b, a);
    }
    if |a| > 0 && |b| > 0 {
      SortedHeads(a, b);
      forall x
        ensures x in a[1..] <==> x in b[1..]
      {
        if x in a[1..] {
          var k :| 0 <= k < |a[1..]| && a[1..][k] == x;
          assert Less(a[0], a[k + 1]);
          LessIrreflexive(a[0]);
          assert x in a;
        }
        if x in b[1..] {
          var k :| 0 <= k < |b[1..]| && b[1..][k] == x;
          assert Less(b[0], b[k + 1]);
          LessIrreflexive(b[0]);
          assert x in b;
        }
      }
      SortedUnique(a[1..], b[1..]);
      assert a == [a[0]] + a[1..] && b == [b[0]] + b[1..];
    }
  }

  // -----------------------------------------------------------------------
  // The recorded scenarios
  // -----------------------------------------------------------------------

  lemma NewBPlusTreeVector()
    ensures NewBPlusTree(3).degree == 3 && NewBPlusTree(3).items == []
  {
  }

  /** The score found for the member at position i, when no earlier entry
      has it. */
  lemma ScoreAt(t: BPlusTree, i: nat)
    requires i < |t.items|
    requires forall k :: 0 <= k < i ==> t.items[k].member != t.items[i].member
    ensures Score(t, t.items[i].member) == (t.items[i].score, true)
  {
  }

  /** The rank of the member at position i, when no earlier entry has it. */
  lemma GetRankAt(t: BPlusTree, i: nat)
    requires i < |t.items|
    requires forall k :: 0 <= k < i ==> t.items[k].member != t.items[i].member
    ensures GetRank(t, t.items[i].member) == i
  {
  }

  /** Adding 10 for member1, 20 for member2 and 5 for member3 to an empty
      tree orders the entries by score. */
  lemma ScoreScenario(t0: BPlusTree)
    requires Valid(t0) && t0.items == []
    ensures Add(Add(Add(t0, 10.0, "member1"), 20.0, "member2"), 5.0, "member3").items
         == [Entry(5.0, "member3"), Entry(10.0, "member1"), Entry(20.0, "member2")]
  {
    var t := Add(Add(Add(t0, 10.0, "member1"), 20.0, "member2"), 5.0, "member3");
    var l := [Entry(5.0, "member3"), Entry(10.0, "member1"), Entry(20.0, "member2")];
    assert Sorted(l);
    forall x
      ensures x in t.items <==> x in l
    {
    }
    SortedUnique(t.items, l);
  }

  lemma ScoresOfScenarioItems(t: BPlusTree)
    requires t.items == [Entry(5.0, "member3"), Entry(10.0, "member1"), Entry(20.0, "member2")]
    ensures Score(t, "member1") == (10.0, true)
    ensures Score(t, "member2") == (20.0, true)
    ensures Score(t, "member3") == (5.0, true)
    ensures !Score(t, "non_existent_member").1
  {
    ScoreAt(t, 0);
    ScoreAt(t, 1);
    ScoreAt(t, 2);
  }

  lemma AddAndScoreVector()
    ensures var t := Add(Add(Add(NewBPlusTree(3), 10.0, "member1"), 20.0, "member2"), 5.0, "member3");
      && Score(t, "member1") == (10.0, true)
      && Score(t, "member2") == (20.0, true)
      && Score(t, "member3") == (5.0, true)
      && !Score(t, "non_existent_member").1
  {
    ScoreScenario(NewBPlusTree(3));
    ScoresOfScenarioItems(Add(Add(Add(NewBPlusTree(3), 10.0, "member1"), 20.0, "member2"), 5.0, "member3"));
  }

  /** Four entries of strictly ascending score are sorted. */
  lemma AscendingFour(a: Entry, b: Entry, c: Entry, d: Entry)
    requires a.score < b.score < c.score < d.score
    ensures Sorted([a, b, c, d])
  {
  }

  /** Adding 10 A, 20 B, 5 C, 15 D to an empty tree leaves the entries in
      score order. */
  lemma RankScenario(t0: BPlusTree)
    requires Valid(t0) && t0.items == []
    ensures Add(Add(Add(Add(t0, 10.0, "memberA"), 20.0, "memberB"), 5.0, "memberC"), 15.0, "memberD").items
         == [Entry(5.0, "memberC"), Entry(10.0, "memberA"), Entry(15.0, "memberD"), Entry(20.0, "memberB")]
  {
    var t := Add(Add(Add(Add(t0, 10.0, "memberA"), 20.0, "memberB"), 5.0, "memberC"), 15.0, "memberD");
    var l := [Entry(5.0, "memberC"), Entry(10.0, "memberA"), Entry(15.0, "memberD"), Entry(20.0, "memberB")];
    AscendingFour(l[0], l[1], l[2], l[3]);
    forall x
      ensures x in t.items <==> x in l
    {
    }
    SortedUnique(t.items, l);
  }

  lemma RankScenarioItems()
    ensures Add(Add(Add(Add(NewBPlusTree(3), 10.0, "memberA"), 20.0, "memberB"), 5.0, "memberC"), 15.0, "memberD").items
         == [Entry(5.0, "memberC"), Entry(10.0, "memberA"), Entry(15.0, "memberD"), Entry(20.0, "memberB")]
  {
    RankScenario(NewBPlusTree(3));
  }

  /** Four entries of distinct members are ranked 0..3 by position; a fifth
      member has no rank. */
  lemma RanksOfFour(t: BPlusTree, a: string, b: string, c: string, d: string, x: string)
    requires |t.items| == 4
    requires t.items[0].member == a && t.items[1].member == b
    requires t.items[2].member == c && t.items[3].member == d
    requires a != b && a != c && a != d && b != c && b != d && c != d
    requires x != a && x != b && x != c && x != d
    ensures GetRank(t, a) == 0 && GetRank(t, b) == 1
    ensures GetRank(t, c) == 2 && GetRank(t, d) == 3
    ensures GetRank(t, x) == -1
  {
    GetRankAt(t, 0);
    GetRankAt(t, 1);
    GetRankAt(t, 2);
    GetRankAt(t, 3);
  }

  lemma RanksOfScenarioItems(t: BPlusTree)
    requires t.items == [Entry(5.0, "memberC"), Entry(10.0, "memberA"), Entry(15.0, "memberD"), Entry(20.0, "memberB")]
    ensures GetRank(t, "memberC") == 0 && GetRank(t, "memberA") == 1
    ensures GetRank(t, "memberD") == 2 && GetRank(t, "memberB") == 3
    ensures GetRank(t, "non_existent_member") == -1
  {
    RanksOfFour(t, "memberC", "memberA", "memberD", "memberB", "non_existent_member");
  }

  /** Ranks follow ascending score, not insertion order. */
  lemma GetRankVector()
    ensures var t := Add(Add(Add(Add(NewBPlusTree(3), 10.0, "memberA"), 20.0, "memberB"), 5.0, "memberC"), 15.0, "memberD");
      && GetRank(t, "memberC") == 0
      && GetRank(t, "memberA") == 1
      && GetRank(t, "memberD") == 2
      && GetRank(t, "memberB") == 3
      && GetRank(t, "non_existent_member") == -1
  {
    RankScenarioItems();
    RanksOfScenarioItems(Add(Add(Add(Add(NewBPlusTree(3), 10.0, "memberA"), 20.0, "memberB"), 5.0, "memberC"), 15.0, "memberD"));
  }
}

=== FILE: cms.dfy ===
/** The Count-Min Sketch: a depth x width matrix of uint32 counters. Row `i`
    hashes an item with seed `i` and uses the hash modulo the width as its
    column. IncrBy adds to one counter per row, saturating at MaxUint32, and
    returns the smallest touched counter; Count reads the same minimum.

    The seeded murmur3 hash (calcHash) is a parameter of every operation. */
module CountMinSketch {
  import opened Common

  /** calcHash(item, seed) */
  type Hash = (string, u32) -> u32

  datatype CMS = CMS(width: u32, depth: u32, counter: seq<seq<u32>>)

  /** `depth` rows of `width` counters each. */
  predicate Valid(c: CMS)
  {
    && |c.counter| == c.depth
    && forall i :: 0 <= i < |c.counter| ==> |c.counter[i]| == c.width
  }

  /** The shape, plus what `hash % width` needs: as soon as one row is
      visited the width must be non-zero (Go panics on a zero modulus). */
  predicate Indexable(c: CMS)
  {
    Valid(c) && (c.depth == 0 || c.width > 0)
  }

  function CreateCMS(w: u32, d: u32): (c: CMS)
    ensures c.width == w && c.depth == d && Valid(c)
    ensures forall i, j :: 0 <= i < d && 0 <= j < w ==> c.counter[i][j] == 0
  {
    CMS(w, d, seq(d, _ => seq(w, _ => 0)))
  }

  /** Adds without wrapping around: the sum, clamped at MaxUint32. */
  function SatAdd(x: u32, v: u32): (r: u32)
    ensures r == Min(x + v, MaxUint32)
    ensures x <= r
  {
    if MaxUint32 - x < v then MaxUint32 else x + v
  }

  /** The column row `i` uses for `item`. */
  function Col(c: CMS, hash: Hash, item: string, i: nat): (j: nat)
    requires c.width > 0 && i <= MaxUint32
    ensures j < c.width
  {
    hash(item, i) % c.width
  }

  /** The counter row `i` consults for `item`. */
  function Cell(c: CMS, hash: Hash, item: string, i: nat): u32
    requires Indexable(c) && i < c.depth
  {
    c.counter[i][Col(c, hash, item, i)]
  }

  /** The running minimum over rows 0 .. n-1, starting from MaxUint32. */
  function RowsMin(c: CMS, hash: Hash, item: string, n: nat): (r: u32)
    requires Indexable(c) && n <= c.depth
    ensures forall i :: 0 <= i < n ==> r <= Cell(c, hash, item, i)
    ensures n == 0 ==> r == MaxUint32
    ensures n > 0 ==> exists i :: 0 <= i < n && r == Cell(c, hash, item, i)
  {
    if n == 0 then MaxUint32
    else
      var m := RowsMin(c, hash, item, n - 1);
      var x := Cell(c, hash, item, n - 1);
      if x < m then x else m
  }

  /** Count: the estimate is the smallest counter `item` maps to; with no
      rows it is MaxUint32. Reading changes no counter. */
  function Count(c: CMS, hash: Hash, item: string): (r: u32)
    requires Indexable(c)
    ensures forall i :: 0 <= i < c.depth ==> r <= Cell(c, hash, item, i)
    ensures c.depth == 0 ==> r == MaxUint32
    ensures c.depth > 0 ==> exists i :: 0 <= i < c.depth && r == Cell(c, hash, item, i)
  {
    RowsMin(c, hash, item, c.depth)
  }

  /** The sketch after IncrBy(item, value): one saturating add per row. */
  function Bumped(c: CMS, hash: Hash, item: string, value: u32): (r: CMS)
    requires Indexable(c)
    ensures Indexable(r) && r.width == c.width && r.depth == c.depth
  {
    CMS(c.width, c.depth,
        seq(c.depth, i requires 0 <= i < c.depth =>
          var j := Col(c, hash, item, i);
          c.counter[i][j := SatAdd(c.counter[i][j], value)]))
  }

  /** In each row exactly the item's counter changes, by a saturating add;
      so no counter ever decreases. */
  lemma BumpedCells(c: CMS, hash: Hash, item: string, value: u32)
    requires Indexable(c)
    ensures var r := Bumped(c, hash, item, value);
      forall i, j :: 0 <= i < c.depth && 0 <= j < c.width ==>
        r.counter[i][j] == if j == Col(c, hash, item, i) then SatAdd(c.counter[i][j], value) else c.counter[i][j]
    ensures var r := Bumped(c, hash, item, value);
      forall i, j :: 0 <= i < c.depth && 0 <= j < c.width ==> c.counter[i][j] <= r.counter[i][j]
  {
  }

  lemma BumpedRow(c: CMS, hash: Hash, item: string, value: u32, i: nat)
    requires Indexable(c) && i < c.depth
    ensures var j := Col(c, hash, item, i);
      && Bumped(c, hash, item, value).counter[i] == c.counter[i][j := SatAdd(c.counter[i][j], value)]
      && Col(Bumped(c, hash, item, value), hash, item, i) == j
  {
  }

  /** One pass of IncrBy's loop: row `i` takes its bumped value, the rows
      before it already have theirs and the rows after it are untouched. */
  lemma IncrRow(c: CMS, hash: Hash, item: string, value: u32, counter: seq<seq<u32>>, i: nat, j: nat, next: u32,
                counter': seq<seq<u32>>)
    requires Indexable(c) && i < c.depth && |counter| == c.depth
    requires forall k :: 0 <= k < i ==> counter[k] == Bumped(c, hash, item, value).counter[k]
    requires forall k :: i <= k < c.depth ==> counter[k] == c.counter[k]
    requires j == hash(item, i) % c.width && next == SatAdd(c.counter[i][j], value)
    requires var row: seq<u32> := c.counter[i][j := next]; counter' == counter[i := row]
    ensures |counter'| == c.depth
    ensures forall k :: 0 <= k < i + 1 ==> counter'[k] == Bumped(c, hash, item, value).counter[k]
    ensures forall k :: i + 1 <= k < c.depth ==> counter'[k] == c.counter[k]
    ensures var m := RowsMin(Bumped(c, hash, item, value), hash, item, i);
      RowsMin(Bumped(c, hash, item, value), hash, item, i + 1) == if next < m then next else m
  {
    BumpedRow(c, hash, item, value, i);
    assert Cell(Bumped(c, hash, item, value), hash, item, i) == next;
  }

  lemma SameRows(a: seq<seq<u32>>, b: seq<seq<u32>>)
    requires |a| == |b| && forall k :: 0 <= k < |b| ==> a[k] == b[k]
    ensures a == b
  {
  }

  /** IncrBy, as the source loops over the rows: bump the row's counter and
      keep the running minimum of the bumped counters. */
  method IncrBy(c: CMS, hash: Hash, item: string, value: u32) returns (c': CMS, minCount: u32)
    requires Indexable(c)
    ensures c' == Bumped(c, hash, item, value)
    ensures minCount == Count(c', hash, item)
  {
    ghost var target := Bumped(c, hash, item, value);
    minCount := MaxUint32;
    var counter := c.counter;
    var i: nat := 0;
    while i < c.depth
      invariant i <= c.depth && |counter| == c.depth
      invariant forall k :: 0 <= k < i ==> counter[k] == target.counter[k]
      invariant forall k :: i <= k < c.depth ==> counter[k] == c.counter[k]
      invariant minCount == RowsMin(target, hash, item, i)
    {
      var j := hash(item, i) % c.width;
      var cur := counter[i][j];
      var next := if MaxUint32 - cur < value then MaxUint32 else cur + value;
      IncrRow(c, hash, item, value, counter, i, j, next, counter[i := counter[i][j := next]]);
      counter := counter[i := counter[i][j := next]];
      if next < minCount {
        minCount := next;
      }
      i := i + 1;
    }
    SameRows(counter, target.counter);
    c' := CMS(c.width, c.depth, counter);
  }

  // -----------------------------------------------------------------------
  // One-sided error: over any sequence of increments, the estimate for an
  // item is at least the total added for it (clamped at MaxUint32).
  // -----------------------------------------------------------------------

  datatype Incr = Incr(item: string, value: u32)

  function ApplyAll(c: CMS, hash: Hash, ops: seq<Incr>): (r: CMS)
    requires Indexable(c)
    ensures Indexable(r) && r.width == c.width && r.depth == c.depth
    decreases |ops|
  {
    if |ops| == 0 then c else ApplyAll(Bumped(c, hash, ops[0].item, ops[0].value), hash, ops[1..])
  }

  /** The true frequency: the sum of the increments made for `item`. */
  function Total(ops: seq<Incr>, item: string): nat
  {
    if |ops| == 0 then 0
    else (if ops[0].item == item then ops[0].value else 0) + Total(ops[1..], item)
  }

  lemma {:induction false} TotalAppend(a: seq<Incr>, b: seq<Incr>, item: string)
    ensures Total(a + b, item) == Total(a, item) + Total(b, item)
  {
    if |a| > 0 {
      assert (a + b)[1..] == a[1..] + b;
      TotalAppend(a[1..], b, item);
    } else {
      assert a + b == b;
    }
  }

  /** Every counter `item` maps to grows by at least the item's total. */
  lemma {:induction false} CellLowerBound(c: CMS, hash: Hash, ops: seq<Incr>, item: string, i: nat)
    requires Indexable(c) && i < c.depth
    ensures Cell(ApplyAll(c, hash, ops), hash, item, i) >= Min(Cell(c, hash, item, i) + Total(ops, item), MaxUint32)
    decreases |ops|
  {
    if |ops| > 0 {
      var c1 := Bumped(c, hash, ops[0].item, ops[0].value);
      CellLowerBound(c1, hash, ops[1..], item, i);
      assert Col(c1, hash, item, i) == Col(c, hash, item, i);
    }
  }

  lemma CountLowerBound(c: CMS, hash: Hash, ops: seq<Incr>, item: string)
    requires Indexable(c)
    ensures Count(ApplyAll(c, hash, ops), hash, item) >= Min(Total(ops, item), MaxUint32)
  {
    if c.depth > 0 {
      var i := MinRow(ApplyAll(c, hash, ops), hash, item);
      CellLowerBound(c, hash, ops, item, i);
    }
  }

  /** A row whose counter is the estimate. */
  lemma MinRow(c: CMS, hash: Hash, item: string) returns (i: nat)
    requires Indexable(c) && c.depth > 0
    ensures i < c.depth && Count(c, hash, item) == Cell(c, hash, item, i)
  {
    i :| 0 <= i < c.depth && Count(c, hash, item) == Cell(c, hash, item, i);
  }

  /** The estimate IncrBy returns never falls below the earlier estimate plus
      the increment (clamped), so a single call already bounds the count. */
  lemma IncrByEstimate(c: CMS, hash: Hash, item: string, value: u32)
    requires Indexable(c)
    ensures Count(Bumped(c, hash, item, value), hash, item) >= Min(Count(c, hash, item) + value, MaxUint32)
  {
    var r := Bumped(c, hash, item, value);
    if c.depth > 0 {
      var i :| 0 <= i < r.depth && Count(r, hash, item) == Cell(r, hash, item, i);
      assert Col(r, hash, item, i) == Col(c, hash, item, i);
      assert Count(c, hash, item) <= Cell(c, hash, item, i);
    }
  }

  // -----------------------------------------------------------------------
  // The recorded scenarios (any hash function)
  // -----------------------------------------------------------------------

  lemma CreateCMSVector()
    ensures CreateCMS(100, 5).width == 100 && CreateCMS(100, 5).depth == 5
    ensures |CreateCMS(100, 5).counter| == 5 && |CreateCMS(100, 5).counter[0]| == 100
    ensures CreateCMS(100, 5).counter[0][0] == 0
  {
  }

  function Repeat(op: Incr, n: nat): (ops: seq<Incr>)
    ensures |ops| == n && forall k :: 0 <= k < n ==> ops[k] == op
  {
    seq(n, _ => op)
  }

  lemma {:induction false} TotalRepeat(op: Incr, n: nat)
    ensures Total(Repeat(op, n), op.item) == n * op.value
  {
    if n > 0 {
      assert Repeat(op, n)[1..] == Repeat(op, n - 1);
      TotalRepeat(op, n - 1);
    }
  }

  /** After IncrBy(item1, 5): Count(item1) >= 5. */
  lemma FirstIncrementVector(hash: Hash)
    ensures Count(ApplyAll(CreateCMS(100, 5), hash, [Incr("test_item_1", 5)]), hash, "test_item_1") >= 5
  {
    var ops := [Incr("test_item_1", 5)];
    CountLowerBound(CreateCMS(100, 5), hash, ops, "test_item_1");
    assert Total(ops, "test_item_1") == 5 by {
      assert ops[1..] == [];
    }
  }

  /** A further +10 accumulates: Count(item1) >= 15. */
  lemma AccumulatedIncrementVector(hash: Hash)
    ensures Count(ApplyAll(CreateCMS(100, 5), hash, [Incr("test_item_1", 5), Incr("test_item_1", 10)]),
                  hash, "test_item_1") >= 15
  {
    var ops := [Incr("test_item_1", 5), Incr("test_item_1", 10)];
    CountLowerBound(CreateCMS(100, 5), hash, ops, "test_item_1");
    assert Total(ops, "test_item_1") == 15 by {
      assert ops[1..] == [Incr("test_item_1", 10)];
      assert ops[1..][1..] == [];
    }
  }

  /** A second item gets its own bound: Count(item2) >= 3. */
  lemma SecondItemVector(hash: Hash)
    ensures Count(ApplyAll(CreateCMS(100, 5), hash,
                           [Incr("test_item_1", 5), Incr("test_item_1", 10), Incr("test_item_2", 3)]),
                  hash, "test_item_2") >= 3
  {
    var ops := [Incr("test_item_1", 5), Incr("test_item_1", 10), Incr("test_item_2", 3)];
    CountLowerBound(CreateCMS(100, 5), hash, ops, "test_item_2");
    assert Total(ops, "test_item_2") == 3 by {
      assert ops[1..] == [Incr("test_item_1", 10), Incr("test_item_2", 3)];
      assert ops[1..][1..] == [Incr("test_item_2", 3)];
      assert ops[1..][1..][1..] == [];
    }
  }

  /** n unit increments of an item, after increments of other items,
      give it a count of at least n. */
  lemma RepeatedIncrement(c: CMS, hash: Hash, earlier: seq<Incr>, item: string, n: nat)
    requires Indexable(c) && n <= MaxUint32
    requires forall k :: 0 <= k < |earlier| ==> earlier[k].item != item
    ensures Count(ApplyAll(c, hash, earlier + Repeat(Incr(item, 1), n)), hash, item) >= n
  {
    TotalAfterOthers(earlier, item, n);
    CountLowerBound(c, hash, earlier + Repeat(Incr(item, 1), n), item);
  }

  /** n unit increments of an item after increments of other items total n. */
  lemma TotalAfterOthers(earlier: seq<Incr>, item: string, n: nat)
    requires forall k :: 0 <= k < |earlier| ==> earlier[k].item != item
    ensures Total(earlier + Repeat(Incr(item, 1), n), item) == n
  {
    var units := Repeat(Incr(item, 1), n);
    TotalAppend(earlier, units, item);
    TotalRepeat(Incr(item, 1), n);
    assert Total(units, item) == n * 1 == n;
    TotalOfOthers(earlier, item);
  }

  /** 1000 unit increments after the earlier ones: Count >= 1000. */
  lemma RepeatedIncrementVector(hash: Hash)
    ensures Count(ApplyAll(CreateCMS(100, 5), hash,
                           [Incr("test_item_1", 5), Incr("test_item_1", 10), Incr("test_item_2", 3)]
                           + Repeat(Incr("another_item", 1), 1000)),
                  hash, "another_item") >= 1000
  {
    RepeatedIncrement(CreateCMS(100, 5), hash,
                      [Incr("test_item_1", 5), Incr("test_item_1", 10), Incr("test_item_2", 3)],
                      "another_item", 1000);
  }

  lemma {:induction false} TotalOfOthers(ops: seq<Incr>, item: string)
    requires forall k :: 0 <= k < |ops| ==> ops[k].item != item
    ensures Total(ops, item) == 0
  {
    if |ops| > 0 {
      TotalOfOthers(ops[1..], item);
    }
  }
}

=== FILE: command_sorted_set.dfy ===
// ZADD, ZSCORE and ZRANK (internal/core/command_sorted_set.go) over an
// explicit key -> sorted set store. Score parsing and score formatting are
// parameters: they are Go's strconv.ParseFloat and "%f".

module SortedSetCommands {
  import opened Common
  import opened Resp
  import Decimal
  import Z = SortedSets
  import Tree = OrderedTree

  type ZStore = map<string, Z.SortedSet>

  /** Reads a score; None is a parse error. */
  type ParseFloat = string -> Option<real>

  /** Prints a score for a ZSCORE reply. */
  type FormatFloat = real -> string

  datatype Outcome = Outcome(store: ZStore, reply: Value)

  predicate StoreValid(store: ZStore)
  {
    forall k :: k in store ==> Z.Valid(store[k])
  }

  const ZAddArityError := "(error) ERR wrong number of arguments for 'ZADD' command"
  const ZScoreArityError := "(error) ERR wrong number of arguments for 'ZSCORE' command"
  const ZRankArityError := "(error) ERR wrong number of arguments for 'ZRANK' command"
  const ScoreError := "(error) Score must be floating point number"

  function PairCountError(n: int): string
  {
    "(error) Wrong number of (score, member) arg: " + Decimal.Format(n)
  }

  /** The score of the j-th (score, member) pair; Go's loop index i is 1 + 2j. */
  function ScoreArg(args: seq<string>, j: nat): string
    requires 3 + 2 * j <= |args|
  {
    args[1 + 2 * j]
  }

  function MemberArg(args: seq<string>, j: nat): string
    requires 3 + 2 * j <= |args|
  {
    args[2 + 2 * j]
  }

  /** The sorted set ZADD works on: the stored one, or a fresh one. */
  function Initial(store: ZStore, key: string, degree: int): (z: Z.SortedSet)
    requires StoreValid(store)
    ensures Z.Valid(z)
  {
    if key in store then store[key] else Z.NewSortedSet(degree)
  }

  /** The loop of cmdZADD from pair j on: the sorted set it leaves behind
      and the reply. The set is already in the store when the loop starts,
      so pairs applied before a parse error stay applied. */
  function ApplyPairs(z: Z.SortedSet, args: seq<string>, parse: ParseFloat, j: nat, count: int): (r: (Z.SortedSet, Value))
    requires Z.Valid(z)
    requires (|args| - 1) % 2 == 0 && 1 + 2 * j <= |args|
    ensures Z.Valid(r.0) && r.0.tree.degree == z.tree.degree
    ensures r.1 == Error(ScoreError) || (r.1.Integer? && 2 * (r.1.n - count) == |args| - 1 - 2 * j)
    decreases |args| - 2 * j
  {
    if 1 + 2 * j >= |args| then (z, Integer(count))
    else
      match parse(ScoreArg(args, j))
      case None => (z, Error(ScoreError))
      case Some(score) =>
        ApplyPairs(Z.Add(z, score, MemberArg(args, j)).0, args, parse, j + 1, count + 1)
  }

  /** cmdZADD key score member [score member ...] */
  function ZAdd(store: ZStore, args: seq<string>, parse: ParseFloat, degree: int): (o: Outcome)
    requires StoreValid(store)
    ensures StoreValid(o.store)
    ensures |args| < 3 ==> o == Outcome(store, Error(ZAddArityError))
    ensures |args| >= 3 && (|args| - 1) % 2 == 1 ==> o == Outcome(store, Error(PairCountError(|args| - 1)))
    ensures |args| >= 3 && (|args| - 1) % 2 == 0 ==>
      args[0] in o.store && o.store == store[args[0] := o.store[args[0]]]
  {
    if |args| < 3 then Outcome(store, Error(ZAddArityError))
    else
      var key := args[0];
      var pairArgs := |args| - 1;
      if pairArgs % 2 == 1 || pairArgs == 0 then Outcome(store, Error(PairCountError(pairArgs)))
      else
        var z := Initial(store, key, degree);
        var (z', reply) := ApplyPairs(z, args, parse, 0, 0);
        Outcome(store[key := z'], reply)
  }

  /** cmdZSCORE key member; it only reads the store. */
  function ZScore(store: ZStore, args: seq<string>, format: FormatFloat): (r: Value)
    ensures |args| != 2 ==> r == Error(ZScoreArityError)
    ensures |args| == 2 ==> (r == Null <==> args[0] !in store || !Z.GetScore(store[args[0]], args[1]).1)
    ensures |args| == 2 && r != Null ==> r == BulkString(format(store[args[0]].memberScores[args[1]]))
  {
    if |args| != 2 then Error(ZScoreArityError)
    else
      var key, member := args[0], args[1];
      if key !in store then Null
      else
        var (score, found) := Z.GetScore(store[key], member);
        if !found then Null else BulkString(format(score))
  }

  /** cmdZRANK key member; it only reads the store. */
  function ZRank(store: ZStore, args: seq<string>): (r: Value)
    ensures |args| != 2 ==> r == Error(ZRankArityError)
    ensures |args| == 2 ==> (r == Null <==> args[0] !in store)
    ensures r.Integer? ==> r.n >= -1
    ensures |args| == 2 && args[0] in store ==> r.Integer? && r.n >= -1
  {
    if |args| != 2 then Error(ZRankArityError)
    else
      var key, member := args[0], args[1];
      if key !in store then Null
      else Integer(Z.GetRank(store[key], member))
  }

  // -----------------------------------------------------------------------
  // Reference: the pairs, parsed and applied one after another
  // -----------------------------------------------------------------------

  predicate ScoresParse(args: seq<string>, parse: ParseFloat, k: nat)
    requires 1 + 2 * k <= |args|
  {
    forall j :: 0 <= j < k ==> parse(ScoreArg(args, j)).Some?
  }

  /** The first k pairs, with their scores parsed. */
  function ParsedPairs(args: seq<string>, parse: ParseFloat, k: nat): (ps: seq<(real, string)>)
    requires 1 + 2 * k <= |args| && ScoresParse(args, parse, k)
    ensures |ps| == k
    ensures forall j :: 0 <= j < k ==> ps[j] == (parse(ScoreArg(args, j)).value, MemberArg(args, j))
  {
    if k == 0 then [] else ParsedPairs(args, parse, k - 1) + [(parse(ScoreArg(args, k - 1)).value, MemberArg(args, k - 1))]
  }

  /** Adds the pairs in order. */
  function AddAll(z: Z.SortedSet, ps: seq<(real, string)>): (r: Z.SortedSet)
    requires Z.Valid(z)
    ensures Z.Valid(r) && r.tree.degree == z.tree.degree
    decreases |ps|
  {
    if |ps| == 0 then z
    else
      var last := ps[|ps| - 1];
      Z.Add(AddAll(z, ps[..|ps| - 1]), last.0, last.1).0
  }

  lemma AddAllSnoc(z: Z.SortedSet, ps: seq<(real, string)>, p: (real, string))
    requires Z.Valid(z)
    ensures AddAll(z, ps + [p]) == Z.Add(AddAll(z, ps), p.0, p.1).0
  {
    assert (ps + [p])[..|ps|] == ps;
  }

  /** One turn of the loop, for a score that parses. */
  lemma ApplyPairsStep(z: Z.SortedSet, args: seq<string>, parse: ParseFloat, j: nat, count: int)
    requires Z.Valid(z)
    requires (|args| - 1) % 2 == 0 && 3 + 2 * j <= |args|
    requires parse(ScoreArg(args, j)).Some?
    ensures ApplyPairs(z, args, parse, j, count)
         == ApplyPairs(Z.Add(z, parse(ScoreArg(args, j)).value, MemberArg(args, j)).0, args, parse, j + 1, count + 1)
  {
  }

  /** One turn of the loop keeps the set equal to the parsed prefix,
      applied. */
  lemma PrefixStep(z0: Z.SortedSet, args: seq<string>, parse: ParseFloat, j: nat, z: Z.SortedSet)
    requires Z.Valid(z0)
    requires (|args| - 1) % 2 == 0 && 3 + 2 * j <= |args|
    requires ScoresParse(args, parse, j + 1)
    requires z == AddAll(z0, ParsedPairs(args, parse, j))
    ensures var z' := Z.Add(z, parse(ScoreArg(args, j)).value, MemberArg(args, j)).0;
      && z' == AddAll(z0, ParsedPairs(args, parse, j + 1))
      && ApplyPairs(z, args, parse, j, j) == ApplyPairs(z', args, parse, j + 1, j + 1)
  {
    var p := (parse(ScoreArg(args, j)).value, MemberArg(args, j));
    var ps := ParsedPairs(args, parse, j);
    assert ParsedPairs(args, parse, j + 1) == ps + [p];
    AddAllSnoc(z0, ps, p);
    ApplyPairsStep(z, args, parse, j, j);
  }

  /** With every score parsing, the loop from pair j on finishes the job. */
  lemma {:induction false} ApplyPairsSucceeds(z0: Z.SortedSet, args: seq<string>, parse: ParseFloat, n: nat, j: nat, z: Z.SortedSet)
    requires Z.Valid(z0)
    requires (|args| - 1) % 2 == 0 && |args| == 1 + 2 * n && j <= n
    requires ScoresParse(args, parse, n)
    requires z == AddAll(z0, ParsedPairs(args, parse, j))
    ensures ApplyPairs(z, args, parse, j, j) == (AddAll(z0, ParsedPairs(args, parse, n)), Integer(n))
    decreases n - j
  {
    if j < n {
      PrefixStep(z0, args, parse, j, z);
      ApplyPairsSucceeds(z0, args, parse, n, j + 1, Z.Add(z, parse(ScoreArg(args, j)).value, MemberArg(args, j)).0);
    }
  }

  /** When pair k is the first whose score fails to parse, the loop stops
      there with pairs before k applied. */
  lemma {:induction false} ApplyPairsFails(z0: Z.SortedSet, args: seq<string>, parse: ParseFloat, j: nat, k: nat, z: Z.SortedSet)
    requires Z.Valid(z0)
    requires (|args| - 1) % 2 == 0 && j <= k && 3 + 2 * k <= |args|
    requires ScoresParse(args, parse, k) && parse(ScoreArg(args, k)).None?
    requires z == AddAll(z0, ParsedPairs(args, parse, j))
    ensures ApplyPairs(z, args, parse, j, j) == (AddAll(z0, ParsedPairs(args, parse, k)), Error(ScoreError))
    decreases k - j
  {
    if j < k {
      PrefixStep(z0, args, parse, j, z);
      ApplyPairsFails(z0, args, parse, j + 1, k, Z.Add(z, parse(ScoreArg(args, j)).value, MemberArg(args, j)).0);
    }
  }

  /** Success: for arguments holding n pairs whose scores all parse, the
      reply counts the pairs, duplicates included, and the key holds every
      pair applied in order. */
  lemma ZAddSucceeds(store: ZStore, args: seq<string>, parse: ParseFloat, degree: int, n: nat)
    requires StoreValid(store)
    requires |args| == 1 + 2 * n && n >= 1
    requires ScoresParse(args, parse, n)
    ensures ZAdd(store, args, parse, degree)
         == Outcome(store[args[0] := AddAll(Initial(store, args[0], degree), ParsedPairs(args, parse, n))], Integer(n))
  {
    var z := Initial(store, args[0], degree);
    EvenCount(|args| - 1, n);
    assert AddAll(z, ParsedPairs(args, parse, 0)) == z;
    ApplyPairsSucceeds(z, args, parse, n, 0, z);
  }

  lemma EvenCount(m: int, n: int)
    requires m == 2 * n
    ensures m % 2 == 0
  {
  }

  /** Not atomic: a score that fails to parse at pair k leaves the key
      created and pairs 0 .. k-1 applied. */
  lemma ZAddFailsAt(store: ZStore, args: seq<string>, parse: ParseFloat, degree: int, k: nat)
    requires StoreValid(store)
    requires |args| >= 3 && (|args| - 1) % 2 == 0 && 3 + 2 * k <= |args|
    requires ScoresParse(args, parse, k) && parse(ScoreArg(args, k)).None?
    ensures ZAdd(store, args, parse, degree)
         == Outcome(store[args[0] := AddAll(Initial(store, args[0], degree), ParsedPairs(args, parse, k))],
                    Error(ScoreError))
  {
    var z := Initial(store, args[0], degree);
    assert AddAll(z, ParsedPairs(args, parse, 0)) == z;
    ApplyPairsFails(z, args, parse, 0, k, z);
  }

  /** The pair's member is not repeated later on. */
  predicate LastOf(ps: seq<(real, string)>, j: nat)
    requires j < |ps|
  {
    forall l :: j < l < |ps| ==> ps[l].1 != ps[j].1
  }

  /** The last occurrence of a member decides its score. */
  lemma {:induction false} AddAllLastWins(z: Z.SortedSet, ps: seq<(real, string)>, j: nat)
    requires Z.Valid(z) && j < |ps| && LastOf(ps, j)
    ensures ps[j].1 in AddAll(z, ps).memberScores
    ensures AddAll(z, ps).memberScores[ps[j].1] == ps[j].0
    decreases |ps|
  {
    if j < |ps| - 1 {
      var init := ps[..|ps| - 1];
      assert init[j] == ps[j];
      assert LastOf(init, j);
      AddAllLastWins(z, init, j);
    }
  }

  /** Members no pair names keep their score, and no member appears that
      neither the set nor the pairs had. */
  lemma {:induction false} AddAllUntouched(z: Z.SortedSet, ps: seq<(real, string)>, m: string)
    requires Z.Valid(z)
    requires forall j :: 0 <= j < |ps| ==> ps[j].1 != m
    ensures m in AddAll(z, ps).memberScores <==> m in z.memberScores
    ensures m in z.memberScores ==> AddAll(z, ps).memberScores[m] == z.memberScores[m]
    decreases |ps|
  {
    if |ps| > 0 {
      var init := ps[..|ps| - 1];
      assert forall j :: 0 <= j < |init| ==> init[j] == ps[j];
      AddAllUntouched(z, init, m);
    }
  }

  /** After a successful ZADD each member holds the score of its last
      occurrence in the command. */
  lemma ZAddLastOccurrenceWins(store: ZStore, args: seq<string>, parse: ParseFloat, degree: int, n: nat, j: nat)
    requires StoreValid(store)
    requires |args| == 1 + 2 * n && j < n
    requires ScoresParse(args, parse, n)
    requires forall l :: j < l < n ==> MemberArg(args, l) != MemberArg(args, j)
    ensures var z := ZAdd(store, args, parse, degree).store[args[0]];
      MemberArg(args, j) in z.memberScores && z.memberScores[MemberArg(args, j)] == parse(ScoreArg(args, j)).value
  {
    var ps := ParsedPairs(args, parse, n);
    ZAddSucceeds(store, args, parse, degree, n);
    assert LastOf(ps, j);
    AddAllLastWins(Initial(store, args[0], degree), ps, j);
  }

  // -----------------------------------------------------------------------
  // Reads after writes
  // -----------------------------------------------------------------------

  /** ZSCORE reports the score a one-pair ZADD just stored. */
  lemma ZScoreAfterZAdd(store: ZStore, key: string, score: string, member: string,
                        parse: ParseFloat, format: FormatFloat, degree: int)
    requires StoreValid(store) && parse(score).Some?
    ensures ZScore(ZAdd(store, [key, score, member], parse, degree).store, [key, member], format)
         == BulkString(format(parse(score).value))
  {
    var o := ZAdd(store, [key, score, member], parse, degree);
    OnePairZAdd(store, key, score, member, parse, degree);
    assert o.store[key].memberScores[member] == parse(score).value;
  }

  /** A one-pair ZADD leaves the key holding the set with that pair added. */
  lemma OnePairZAdd(store: ZStore, key: string, score: string, member: string, parse: ParseFloat, degree: int)
    requires StoreValid(store) && parse(score).Some?
    ensures var o := ZAdd(store, [key, score, member], parse, degree);
      key in o.store && Z.Valid(Initial(store, key, degree))
      && o.store[key] == Z.Add(Initial(store, key, degree), parse(score).value, member).0
  {
    var args := [key, score, member];
    assert ScoreArg(args, 0) == score && MemberArg(args, 0) == member;
    ZAddSucceeds(store, args, parse, degree, 1);
    assert ParsedPairs(args, parse, 1) == [(parse(score).value, member)];
  }

  /** ZRANK of a present member is the number of entries ordered before it. */
  lemma ZRankIsCountLess(store: ZStore, key: string, member: string)
    requires StoreValid(store) && key in store && member in store[key].memberScores
    ensures ZRank(store, [key, member])
         == Integer(Tree.CountLess(store[key].tree.items, Tree.Entry(store[key].memberScores[member], member)))
  {
    Z.RankIsCountLess(store[key], member);
  }

  /** ZRANK on an existing key with an absent member replies -1, not nil. */
  lemma ZRankAbsentMember(store: ZStore, key: string, member: string)
    requires key in store && member !in store[key].memberScores
    ensures ZRank(store, [key, member]) == Integer(-1)
  {
  }

  /** ZRANK replies order two present members as their (score, member)
      entries are ordered. */
  lemma ZRankOrder(store: ZStore, key: string, a: string, b: string)
    requires StoreValid(store) && key in store
    requires a in store[key].memberScores && b in store[key].memberScores
    ensures ZRank(store, [key, a]).Integer? && ZRank(store, [key, b]).Integer?
    ensures ZRank(store, [key, a]).n < ZRank(store, [key, b]).n
        <==> Tree.Less(Tree.Entry(store[key].memberScores[a], a), Tree.Entry(store[key].memberScores[b], b))
  {
    Z.RankOrder(store[key], a, b);
  }

  /** A concrete trace showing that ZADD is not atomic. */
  lemma ZAddPartialExample(parse: ParseFloat)
    requires parse("1.5") == Some(1.5) && parse("oops") == None
    ensures var o := ZAdd(map[], ["z", "1.5", "a", "oops", "b"], parse, 3);
      && o.reply == Error(ScoreError)
      && "z" in o.store && o.store["z"].memberScores == map["a" := 1.5]
  {
    var args := ["z", "1.5", "a", "oops", "b"];
    assert ScoreArg(args, 0) == "1.5" && ScoreArg(args, 1) == "oops" && MemberArg(args, 0) == "a";
    ZAddFailsAt(map[], args, parse, 3, 1);
    assert ParsedPairs(args, parse, 1) == [(1.5, "a")];
  }
}

=== FILE: common.dfy ===
/** Shared vocabulary: the 32-bit unsigned range the sketches use, an optional
    value, integer minimum and repetition-free sequences. */
module Common {

  /** math.MaxUint32 */
  const MaxUint32: int := 0xFFFF_FFFF

  /** A Go uint32; arithmetic on it is written out explicitly wherever the
      source could wrap. */
  type u32 = x: int | 0 <= x <= MaxUint32

  datatype Option<+T> = None | Some(value: T)

  function Min(a: int, b: int): int
  {
    if a <= b then a else b
  }

  /** No element occurs twice. */
  predicate Distinct<T(==)>(xs: seq<T>)
  {
    forall i, j :: 0 <= i < j < |xs| ==> xs[i] != xs[j]
  }
}

=== FILE: decimal.dfy ===
/** Decimal text for integers, as strconv.ParseInt and the integer framing of
    the wire protocol use it: an optional sign followed by at least one
    decimal digit. */
module Decimal {
  import opened Common

  predicate IsDigit(ch: char)
  {
    '0' <= ch <= '9'
  }

  predicate AllDigits(s: string)
  {
    forall k :: 0 <= k < |s| ==> IsDigit(s[k])
  }

  function DigitChar(d: nat): (ch: char)
    requires d < 10
    ensures IsDigit(ch) && ch as int - '0' as int == d
  {
    ('0' as int + d) as char
  }

  /** Shortest decimal spelling of a natural number. */
  function Digits(n: nat): (s: string)
    ensures |s| > 0 && AllDigits(s)
    decreases n
  {
    if n < 10 then [DigitChar(n)] else Digits(n / 10) + [DigitChar(n % 10)]
  }

  /** Decimal spelling of an integer, with a leading '-' when negative. */
  function Format(n: int): (s: string)
    ensures |s| > 0
    ensures forall k :: 0 <= k < |s| ==> IsDigit(s[k]) || s[k] == '-'
  {
    if n < 0 then "-" + Digits(-n) else Digits(n)
  }

  /** Value of a run of decimal digits, most significant first. */
  function DigitsValue(s: string): nat
    requires AllDigits(s)
  {
    if |s| == 0 then 0
    else DigitsValue(s[..|s| - 1]) * 10 + (s[|s| - 1] as int - '0' as int)
  }

  /** An optional '+' or '-' followed by one or more digits; anything else
      is not an integer. Leading zeros are accepted. */
  function Parse(s: string): Option<int>
  {
    if |s| > 1 && (s[0] == '-' || s[0] == '+') && AllDigits(s[1..]) then
      var v: int := DigitsValue(s[1..]);
      Some(if s[0] == '-' then -v else v)
    else if |s| > 0 && AllDigits(s) then
      Some(DigitsValue(s))
    else
      None
  }

  lemma {:induction false} DigitsValueOfDigits(n: nat)
    ensures DigitsValue(Digits(n)) == n
    decreases n
  {
    if n >= 10 {
      DigitsValueOfDigits(n / 10);
      var s := Digits(n);
      assert s[..|s| - 1] == Digits(n / 10);
    }
  }

  /** Parsing inverts formatting for every integer. */
  lemma ParseFormat(n: int)
    ensures Parse(Format(n)) == Some(n)
  {
    if n < 0 {
      DigitsValueOfDigits(-n);
      assert Format(n)[1..] == Digits(-n);
    } else {
      DigitsValueOfDigits(n);
    }
  }
}

=== FILE: keyspace.dfy ===
// The expiring keyspace (the Dict store), the command handlers PING, SET,
// GET, DEL, EXISTS, EXPIRE and TTL, and the dispatch switch that routes a
// command name to its handler. The clock is the parameter `now`, in
// milliseconds.

module Keyspace {
  import opened Common
  import opened Resp
  import Decimal

  /** A stored value and, if it has one, the absolute time it expires at. */
  datatype Obj = Obj(value: string, expiresAt: Option<int>)

  type Store = map<string, Obj>

  datatype Outcome = Outcome(store: Store, reply: Value)

  datatype Command = Command(name: string, args: seq<string>)

  /** TTL's reply for a missing or expired key. */
  const TtlKeyNotExist: Value := Integer(-2)

  /** TTL's reply for a key without expiry. */
  const TtlKeyExistNoExpire: Value := Integer(-1)

  const RespOk: Value := SimpleString("OK")

  function ArityError(cmd: string): string
  {
    "(error) ERR wrong number of arguments for '" + cmd + "' command"
  }

  const PingArityError := "ERR wrong number of arguments for 'ping' command"
  const ValueError := "(error) ERR value is not an integer or out of range"
  const NotFound := "CMD NOT FOUND"

  // -----------------------------------------------------------------------
  // The store
  // -----------------------------------------------------------------------

  /** A key counts only while present and not yet expired; an object
      expires at the instant `expiresAt` is reached. */
  predicate Live(store: Store, key: string, now: int)
  {
    key in store && (store[key].expiresAt.None? || now < store[key].expiresAt.value)
  }

  /** NewObj(value, ttl): a negative ttl means no expiry. */
  function NewObj(value: string, ttlMillis: int, now: int): (o: Obj)
    ensures o.value == value
    ensures o.expiresAt.None? <==> ttlMillis < 0
    ensures o.expiresAt.Some? ==> o.expiresAt.value - now == ttlMillis
  {
    if ttlMillis < 0 then Obj(value, None) else Obj(value, Some(now + ttlMillis))
  }

  /** SetExpiry(key, delta): re-arms the expiry of a stored key relative to
      now; a negative delta expires it at once. */
  function SetExpiry(store: Store, key: string, deltaMillis: int, now: int): (r: Store)
    ensures key in store ==> r == store[key := Obj(store[key].value, Some(now + deltaMillis))]
    ensures key !in store ==> r == store
  {
    if key in store then store[key := store[key].(expiresAt := Some(now + deltaMillis))] else store
  }

  /** Get(key): the value of a live key; an expired key is deleted on the
      way out. */
  function Get(store: Store, key: string, now: int): (r: (Option<string>, Store))
    ensures r.0.Some? <==> Live(store, key, now)
    ensures r.0.Some? ==> r.0.value == store[key].value && r.1 == store
    ensures r.0.None? ==> r.1 == store - {key}
  {
    if key !in store then (None, store)
    else if !Live(store, key, now) then (None, store - {key})
    else (Some(store[key].value), store)
  }

  /** The number of arguments naming a live key, repeats counted each time. */
  function CountLive(store: Store, keys: seq<string>, now: int): (n: nat)
    ensures n <= |keys|
  {
    if |keys| == 0 then 0
    else (if Live(store, keys[0], now) then 1 else 0) + CountLive(store, keys[1..], now)
  }

  /** Removes each argument that names a live key and counts the removals. */
  function DelKeys(store: Store, keys: seq<string>, now: int): (r: (Store, nat))
    ensures forall k :: k in keys ==> k !in r.0 || !Live(store, k, now)
    ensures forall k :: k in r.0 ==> k in store && r.0[k] == store[k]
    ensures forall k :: k in store && k !in keys ==> k in r.0
    ensures r.1 <= |keys|
  {
    if |keys| == 0 then (store, 0)
    else if Live(store, keys[0], now) then
      var (s, n) := DelKeys(store - {keys[0]}, keys[1..], now);
      (s, n + 1)
    else
      DelKeys(store, keys[1..], now)
  }

  // -----------------------------------------------------------------------
  // Command handlers
  // -----------------------------------------------------------------------

  /** PING [message] */
  function Ping(args: seq<string>): (r: Value)
    ensures |args| == 0 <==> r == SimpleString("PONG")
    ensures |args| == 1 ==> r == BulkString(args[0])
    ensures |args| >= 2 <==> r.Error?
  {
    if |args| == 0 then SimpleString("PONG")
    else if |args| == 1 then BulkString(args[0])
    else Error(PingArityError)
  }

  /** SET key value */
  function CmdSet(store: Store, args: seq<string>, now: int): (o: Outcome)
    ensures |args| != 2 ==> o == Outcome(store, Error(ArityError("SET")))
    ensures |args| == 2 ==> o.reply == RespOk && Live(o.store, args[0], now)
    ensures |args| == 2 ==> o.store[args[0]].value == args[1]
    ensures forall k :: k in store && (|args| != 2 || k != args[0]) ==> k in o.store && o.store[k] == store[k]
  {
    if |args| != 2 then Outcome(store, Error(ArityError("SET")))
    else Outcome(store[args[0] := NewObj(args[1], -1, now)], RespOk)
  }

  /** GET key */
  function CmdGet(store: Store, args: seq<string>, now: int): (o: Outcome)
    ensures |args| != 1 ==> o == Outcome(store, Error(ArityError("GET")))
    ensures |args| == 1 ==> (o.reply == Null <==> !Live(store, args[0], now))
    ensures |args| == 1 && o.reply != Null ==> o.reply == BulkString(store[args[0]].value) && o.store == store
    ensures |args| == 1 && o.reply == Null ==> o.store == store - {args[0]}
  {
    if |args| != 1 then Outcome(store, Error(ArityError("GET")))
    else
      var (v, s) := Get(store, args[0], now);
      if v.None? then Outcome(s, Null) else Outcome(s, BulkString(v.value))
  }

  /** DEL key [key ...]: the reply is the number of keys it removed, which
      are exactly the live keys it names, each once however often named. */
  function CmdDel(store: Store, args: seq<string>, now: int): (o: Outcome)
    ensures |args| == 0 ==> o == Outcome(store, Error(ArityError("DEL")))
    ensures |args| > 0 ==> o.reply.Integer? && 0 <= o.reply.n <= |args|
    ensures |args| > 0 ==> o.store == store - LiveAmong(store, args, now)
    ensures |args| > 0 ==> o.reply == Integer(|LiveAmong(store, args, now)|)
    ensures forall k :: k in args ==> !Live(o.store, k, now)
  {
    if |args| == 0 then Outcome(store, Error(ArityError("DEL")))
    else
      DelRemovesLiveAmong(store, args, now);
      var (s, n) := DelKeys(store, args, now);
      Outcome(s, Integer(n))
  }

  /** EXISTS key [key ...]; it only reads the store. */
  function CmdExists(store: Store, args: seq<string>, now: int): (r: Value)
    ensures |args| == 0 ==> r == Error(ArityError("EXISTS"))
    ensures |args| > 0 ==> r.Integer? && 0 <= r.n <= |args|
    ensures |args| > 0 ==> r.n == |LivePositions(store, args, now, 0)|
  {
    if |args| == 0 then Error(ArityError("EXISTS"))
    else
      CountLiveFrom(store, args, now, 0);
      assert args[0..] == args;
      Integer(CountLive(store, args, now))
  }

  /** EXPIRE key seconds: seconds must be a non-negative 64-bit integer. A
      live key is re-armed; a key that is not live stays absent, and one that
      expired but was not yet swept is deleted, as GET does. */
  function CmdExpire(store: Store, args: seq<string>, now: int): (o: Outcome)
    ensures |args| != 2 ==> o == Outcome(store, Error(ArityError("EXPIRE")))
    ensures |args| == 2 && o.reply != RespOk ==> o == Outcome(store, Error(ValueError))
    ensures |args| == 2 ==>
      (o.reply == RespOk <==> exists secs :: Decimal.Parse(args[1]) == Some(secs) && 0 <= secs <= MaxInt64)
    ensures |args| == 2 && o.reply == RespOk && Live(store, args[0], now) ==>
      && args[0] in o.store && o.store[args[0]].value == store[args[0]].value
      && Decimal.Parse(args[1]).Some?
      && o.store[args[0]].expiresAt == Some(now + Decimal.Parse(args[1]).value * 1000)
    ensures |args| == 2 && !Live(store, args[0], now) ==> args[0] !in o.store || o.store == store
    ensures |args| == 2 && !Live(store, args[0], now) ==> forall later :: now <= later ==> !Live(o.store, args[0], later)
    ensures forall k :: k in store && (|args| != 2 || k != args[0]) ==> k in o.store && o.store[k] == store[k]
  {
    if |args| != 2 then Outcome(store, Error(ArityError("EXPIRE")))
    else
      match Decimal.Parse(args[1])
      case None => Outcome(store, Error(ValueError))
      case Some(secs) =>
        if secs < 0 || !IsInt64(secs) then Outcome(store, Error(ValueError))
        else if !Live(store, args[0], now) then Outcome(store - {args[0]}, RespOk)
        else Outcome(SetExpiry(store, args[0], secs * 1000, now), RespOk)
  }

  /** TTL key: whole seconds left, truncated; or the not-exist / no-expiry
      replies. It only reads the store. */
  function CmdTtl(store: Store, args: seq<string>, now: int): (r: Value)
    ensures |args| != 1 ==> r == Error(ArityError("TTL"))
    ensures |args| == 1 ==> (r == TtlKeyNotExist <==> !Live(store, args[0], now))
    ensures |args| == 1 && Live(store, args[0], now) && store[args[0]].expiresAt.None? ==> r == TtlKeyExistNoExpire
    ensures |args| == 1 && Live(store, args[0], now) && store[args[0]].expiresAt.Some? ==>
      r.Integer? && r.n >= 0 && r.n * 1000 <= store[args[0]].expiresAt.value - now < (r.n + 1) * 1000
  {
    if |args| != 1 then Error(ArityError("TTL"))
    else
      var key := args[0];
      if !Live(store, key, now) then TtlKeyNotExist
      else
        match store[key].expiresAt
        case None => TtlKeyExistNoExpire
        case Some(at) => Integer((at - now) / 1000)
  }

  /** The dispatch switch: seven known names, anything else is answered
      with the not-found error and leaves the store alone. */
  function Execute(store: Store, cmd: Command, now: int): (o: Outcome)
    ensures cmd.name !in {"PING", "SET", "GET", "TTL", "DEL", "EXPIRE", "EXISTS"} ==> o == Outcome(store, Error(NotFound))
  {
    match cmd.name
    case "PING" => Outcome(store, Ping(cmd.args))
    case "SET" => CmdSet(store, cmd.args, now)
    case "GET" => CmdGet(store, cmd.args, now)
    case "TTL" => Outcome(store, CmdTtl(store, cmd.args, now))
    case "DEL" => CmdDel(store, cmd.args, now)
    case "EXPIRE" => CmdExpire(store, cmd.args, now)
    case "EXISTS" => Outcome(store, CmdExists(store, cmd.args, now))
    case _ => Outcome(store, Error(NotFound))
  }

  // -----------------------------------------------------------------------
  // Properties across commands
  // -----------------------------------------------------------------------

  /** GET returns the value the last SET of that key wrote, at any time. */
  lemma SetThenGet(store: Store, key: string, value: string, now: int, later: int)
    ensures CmdGet(CmdSet(store, [key, value], now).store, [key], later).reply == BulkString(value)
  {
  }

  /** A SET of another key leaves GET of this key as it was. */
  lemma SetOtherThenGet(store: Store, key: string, other: string, value: string, now: int)
    requires other != key
    ensures CmdGet(CmdSet(store, [other, value], now).store, [key], now).reply == CmdGet(store, [key], now).reply
  {
  }

  /** The keys among the arguments that are live. */
  function LiveAmong(store: Store, keys: seq<string>, now: int): set<string>
  {
    set k | k in keys && Live(store, k, now)
  }

  /** For distinct arguments, EXISTS counts the live keys among them. */
  lemma {:induction false} CountLiveIsSetSize(store: Store, keys: seq<string>, now: int)
    requires Distinct(keys)
    ensures CountLive(store, keys, now) == |LiveAmong(store, keys, now)|
  {
    if |keys| > 0 {
      CountLiveIsSetSize(store, keys[1..], now);
      LiveAmongCons(store, keys, now);
    }
  }

  /** The live keys among `keys` are those after the first, plus the first
      when it is live and not repeated later. */
  lemma LiveAmongCons(store: Store, keys: seq<string>, now: int)
    requires |keys| > 0 && keys[0] !in keys[1..]
    ensures var rest := LiveAmong(store, keys[1..], now);
      |LiveAmong(store, keys, now)| == |rest| + (if Live(store, keys[0], now) then 1 else 0)
  {
    var rest := LiveAmong(store, keys[1..], now);
    assert keys == [keys[0]] + keys[1..];
    assert keys[0] !in rest;
    if Live(store, keys[0], now) {
      assert LiveAmong(store, keys, now) == rest + {keys[0]};
    } else {
      assert LiveAmong(store, keys, now) == rest;
    }
  }

  /** The positions at or after `lo` whose argument names a live key. */
  function LivePositions(store: Store, keys: seq<string>, now: int, lo: nat): set<int>
    requires lo <= |keys|
  {
    set i | lo <= i < |keys| && Live(store, keys[i], now)
  }

  /** Counting from position `lo` on counts the live positions there: a key
      named twice is counted twice. */
  lemma {:induction false} CountLiveFrom(store: Store, keys: seq<string>, now: int, lo: nat)
    requires lo <= |keys|
    ensures CountLive(store, keys[lo..], now) == |LivePositions(store, keys, now, lo)|
    decreases |keys| - lo
  {
    var here := LivePositions(store, keys, now, lo);
    if lo == |keys| {
      assert here == {};
    } else {
      CountLiveFrom(store, keys, now, lo + 1);
      var later := LivePositions(store, keys, now, lo + 1);
      assert keys[lo..][1..] == keys[lo + 1..];
      assert lo !in later;
      if Live(store, keys[lo], now) {
        assert here == later + {lo};
      } else {
        assert here == later;
      }
    }
  }

  /** EXISTS counts argument positions, not keys: every argument that names
      a live key adds one, repeats included. */
  lemma ExistsCountsPositions(store: Store, args: seq<string>, now: int)
    ensures |args| > 0 ==>
      CmdExists(store, args, now) == Integer(|set i | 0 <= i < |args| && Live(store, args[i], now)|)
  {
    if |args| > 0 {
      assert LivePositions(store, args, now, 0) == set i | 0 <= i < |args| && Live(store, args[i], now);
    }
  }

  /** DEL removes exactly as many keys as EXISTS would have counted. */
  lemma {:induction false} DelCountsWhatExistsCounts(store: Store, keys: seq<string>, now: int)
    requires Distinct(keys)
    ensures DelKeys(store, keys, now).1 == CountLive(store, keys, now)
  {
    if |keys| > 0 {
      var rest := keys[1..];
      assert keys[0] !in rest;
      if Live(store, keys[0], now) {
        LiveOutsideRemoval(store, keys[0], rest, now);
        DelCountsWhatExistsCounts(store - {keys[0]}, rest, now);
      } else {
        DelCountsWhatExistsCounts(store, rest, now);
      }
    }
  }

  /** Removing a key the arguments do not name changes none of their counts. */
  lemma {:induction false} LiveOutsideRemoval(store: Store, gone: string, keys: seq<string>, now: int)
    requires gone !in keys
    ensures CountLive(store - {gone}, keys, now) == CountLive(store, keys, now)
  {
    if |keys| > 0 {
      LiveOutsideRemoval(store, gone, keys[1..], now);
    }
  }

  /** Dropping a key from the store drops it, and only it, from the live
      keys the arguments name. */
  lemma LiveAmongRemove(store: Store, gone: string, keys: seq<string>, now: int)
    ensures LiveAmong(store - {gone}, keys, now) == LiveAmong(store, keys, now) - {gone}
  {
  }

  /** DEL removes the live keys it names, each once, and counts them: a key
      named twice is removed and counted once. */
  lemma DelRemovesLiveAmong(store: Store, keys: seq<string>, now: int)
    ensures DelKeys(store, keys, now).0 == store - LiveAmong(store, keys, now)
    ensures DelKeys(store, keys, now).1 == |LiveAmong(store, keys, now)|
  {
    DelStore(store, keys, now);
    DelCount(store, keys, now);
  }

  /** The store DEL leaves behind. */
  lemma {:induction false} DelStore(store: Store, keys: seq<string>, now: int)
    ensures DelKeys(store, keys, now).0 == store - LiveAmong(store, keys, now)
  {
    if |keys| == 0 {
      assert LiveAmong(store, keys, now) == {};
      assert store - {} == store;
    } else {
      var k0, rest := keys[0], keys[1..];
      assert keys == [k0] + rest;
      if Live(store, k0, now) {
        DelStore(store - {k0}, rest, now);
        LiveAmongRemove(store, k0, rest, now);
        assert LiveAmong(store, keys, now) == LiveAmong(store, rest, now) + {k0};
        RemoveInTwoSteps(store, k0, LiveAmong(store, rest, now));
      } else {
        DelStore(store, rest, now);
        assert LiveAmong(store, keys, now) == LiveAmong(store, rest, now);
      }
    }
  }

  /** The number DEL replies with. */
  lemma {:induction false} DelCount(store: Store, keys: seq<string>, now: int)
    ensures DelKeys(store, keys, now).1 == |LiveAmong(store, keys, now)|
  {
    if |keys| == 0 {
      assert LiveAmong(store, keys, now) == {};
    } else {
      var k0, rest := keys[0], keys[1..];
      LiveAmongFirst(store, keys, now);
      if Live(store, k0, now) {
        DelCount(store - {k0}, rest, now);
        LiveAmongRemove(store, k0, rest, now);
        AddOneMore(LiveAmong(store, rest, now), k0);
      } else {
        DelCount(store, rest, now);
      }
    }
  }

  /** The live keys named by `keys` are those named after the first, plus
      the first when it is live. */
  lemma LiveAmongFirst(store: Store, keys: seq<string>, now: int)
    requires |keys| > 0
    ensures LiveAmong(store, keys, now)
         == LiveAmong(store, keys[1..], now) + (if Live(store, keys[0], now) then {keys[0]} else {})
  {
    assert keys == [keys[0]] + keys[1..];
  }

  /** Adding an element to a set with it taken out adds exactly one. */
  lemma AddOneMore(ks: set<string>, k0: string)
    ensures |ks + {k0}| == |ks - {k0}| + 1
  {
    assert ks + {k0} == (ks - {k0}) + {k0};
  }

  /** Removing one key and then a set is removing both at once. */
  lemma RemoveInTwoSteps(store: Store, k0: string, ks: set<string>)
    ensures store - {k0} - (ks - {k0}) == store - (ks + {k0})
  {
  }

  /** DEL's reply is the number of keys that left the store. */
  lemma DelCountIsShrinkage(store: Store, args: seq<string>, now: int)
    requires |args| > 0
    ensures var o := CmdDel(store, args, now);
      o.reply == Integer(|store.Keys - o.store.Keys|)
  {
    var o := CmdDel(store, args, now);
    assert store.Keys - o.store.Keys == LiveAmong(store, args, now);
  }

  /** After DEL nothing it named is live, and every other key is as it was. */
  lemma DelLeavesOthers(store: Store, keys: seq<string>, now: int, k: string)
    requires |keys| > 0 && k !in keys
    ensures k in CmdDel(store, keys, now).store <==> k in store
    ensures k in store ==> CmdDel(store, keys, now).store[k] == store[k]
  {
  }

  /** EXPIRE k s followed at once by TTL k answers s. */
  lemma ExpireThenTtl(store: Store, key: string, secs: nat, now: int)
    requires Live(store, key, now) && 0 < secs <= MaxInt64
    ensures CmdExpire(store, [key, Decimal.Format(secs)], now).reply == RespOk
    ensures CmdTtl(CmdExpire(store, [key, Decimal.Format(secs)], now).store, [key], now) == Integer(secs)
  {
    Decimal.ParseFormat(secs);
  }

  /** An expiry forced into the past makes TTL and GET behave as if the key
      had never been set, and GET then drops it. */
  lemma ForcedExpiry(store: Store, key: string, deltaMillis: int, now: int)
    requires deltaMillis <= 0
    ensures var s := SetExpiry(store, key, deltaMillis, now);
      && CmdTtl(s, [key], now) == TtlKeyNotExist
      && CmdGet(s, [key], now).reply == Null
      && key !in CmdGet(s, [key], now).store
  {
  }

  /** EXPIRE never brings back a key that is not live: GET and TTL answer
      as if it had never been set, now and at any later time. */
  lemma ExpireNeverRevives(store: Store, key: string, seconds: string, now: int, later: int)
    requires !Live(store, key, now) && now <= later
    ensures var s := CmdExpire(store, [key, seconds], now).store;
      && CmdGet(s, [key], later).reply == Null
      && CmdTtl(s, [key], later) == TtlKeyNotExist
  {
  }

  /** A 5000 ms expiry read back within the first second gives 4 or 5. */
  lemma TtlOfFiveSeconds(store: Store, key: string, value: string, t0: int, now: int)
    requires t0 <= now <= t0 + 1000
    ensures var r := CmdTtl(store[key := NewObj(value, 5000, t0)], [key], now);
      r.Integer? && 4 <= r.n <= 5
  {
    var s := store[key := NewObj(value, 5000, t0)];
    assert Live(s, key, now);
  }

  /** Unknown names reach the client as the bytes of the not-found error. */
  lemma UnknownCommandBytes(store: Store, args: seq<string>, now: int)
    ensures Execute(store, Command("UNKNOWN", args), now).store == store
    ensures Encode(Execute(store, Command("UNKNOWN", args), now).reply) == "-CMD NOT FOUND\r\n"
  {
  }

  // -----------------------------------------------------------------------
  // The recorded scenarios
  // -----------------------------------------------------------------------

  lemma CountLiveOfThree(store: Store, keys: seq<string>, now: int)
    requires |keys| == 3
    ensures CountLive(store, keys, now)
         == (if Live(store, keys[0], now) then 1 else 0)
          + (if Live(store, keys[1], now) then 1 else 0)
          + (if Live(store, keys[2], now) then 1 else 0)
  {
    assert keys[1..][0] == keys[1] && keys[1..][1..] == keys[2..];
    assert keys[2..][0] == keys[2] && keys[2..][1..] == [];
    assert CountLive(store, keys[2..], now) == (if Live(store, keys[2], now) then 1 else 0);
    assert CountLive(store, keys[1..], now)
        == (if Live(store, keys[1], now) then 1 else 0) + CountLive(store, keys[2..], now);
  }

  /** foo live, baz expired a second ago, notfound absent. */
  lemma ExistsVector(store: Store, now: int)
    ensures var s0 := store - {"foo", "baz", "notfound"};
      var s1 := s0["foo" := NewObj("bar", -1, now)]["baz" := NewObj("qux", -1, now)];
      var s := SetExpiry(s1, "baz", -1000, now);
      && CmdExists(s, ["foo", "baz", "notfound"], now) == Integer(1)
      && CmdExists(s, [], now) == Error("(error) ERR wrong number of arguments for 'EXISTS' command")
  {
    var s0 := store - {"foo", "baz", "notfound"};
    var s1 := s0["foo" := NewObj("bar", -1, now)]["baz" := NewObj("qux", -1, now)];
    var s := SetExpiry(s1, "baz", -1000, now);
    assert Live(s, "foo", now) && !Live(s, "baz", now) && !Live(s, "notfound", now);
    CountLiveOfThree(s, ["foo", "baz", "notfound"], now);
  }

  lemma PingVector()
    ensures Ping([]) == SimpleString("PONG")
    ensures Ping(["hello"]) == BulkString("hello")
    ensures Ping(["a", "b"]) == Error("ERR wrong number of arguments for 'ping' command")
  {
  }

  lemma SetVector(store: Store, now: int)
    ensures CmdSet(store, ["foo", "bar"], now).reply == RespOk
    ensures CmdSet(store, ["foo"], now).reply == Error("(error) ERR wrong number of arguments for 'SET' command")
  {
  }

  lemma GetVector(store: Store, now: int)
    requires "notfound" !in store
    ensures var s := store["foo" := NewObj("bar", -1, now)];
      && CmdGet(s, ["foo"], now).reply == BulkString("bar")
      && CmdGet(s, ["notfound"], now).reply == Null
      && CmdGet(s, [], now).reply == Error("(error) ERR wrong number of arguments for 'GET' command")
  {
  }

  /** Two live keys and one missing one: DEL removes two. */
  lemma DelOfThree(s: Store, keys: seq<string>, now: int)
    requires keys == ["foo", "baz", "notfound"]
    requires Live(s, "foo", now) && Live(s, "baz", now) && !Live(s, "notfound", now)
    ensures CmdDel(s, keys, now).reply == Integer(2)
  {
    assert Distinct(keys);
    CountLiveOfThree(s, keys, now);
    DelCountsWhatExistsCounts(s, keys, now);
  }

  lemma DelVector(now: int)
    ensures var s := map["foo" := NewObj("bar", -1, now), "baz" := NewObj("qux", -1, now)];
      CmdDel(s, ["foo", "baz", "notfound"], now).reply == Integer(2)
    ensures CmdDel(map[], [], now).reply == Error("(error) ERR wrong number of arguments for 'DEL' command")
  {
    var s := map["foo" := NewObj("bar", -1, now), "baz" := NewObj("qux", -1, now)];
    assert Live(s, "foo", now) && Live(s, "baz", now) && !Live(s, "notfound", now);
    DelOfThree(s, ["foo", "baz", "notfound"], now);
    DelArityText();
  }

  lemma DelArityText()
    ensures ArityError("DEL") == "(error) ERR wrong number of arguments for 'DEL' command"
  {
  }

  lemma ExpireVector(store: Store, now: int)
    ensures var s := store["foo" := NewObj("bar", -1, now)];
      && CmdExpire(s, ["foo", "10"], now).reply == RespOk
      && CmdExpire(s, ["foo"], now).reply == Error("(error) ERR wrong number of arguments for 'EXPIRE' command")
      && CmdExpire(s, ["foo", "-1"], now).reply == Error("(error) ERR value is not an integer or out of range")
  {
    assert Decimal.Parse("10") == Some(10) by {
      assert Decimal.Format(10) == "10";
      Decimal.ParseFormat(10);
    }
  }

  lemma TtlVector(now: int)
    ensures CmdTtl(map[], ["nonexistent"], now) == TtlKeyNotExist
    ensures CmdTtl(map["foo" := NewObj("bar", -1, now)], ["foo"], now) == TtlKeyExistNoExpire
    ensures CmdTtl(SetExpiry(map["expired" := NewObj("value", -1, now)], "expired", -1000, now), ["expired"], now) == TtlKeyNotExist
    ensures CmdTtl(map[], [], now) == Error("(error) ERR wrong number of arguments for 'TTL' command")
  {
  }

  /** The dispatcher runs PING, SET and GET and answers unknown names. */
  lemma ExecuteVector(store: Store, now: int)
    ensures Encode(Execute(store, Command("PING", []), now).reply) == "+PONG\r\n"
    ensures var o := Execute(store, Command("SET", ["key", "value"]), now);
      && o.reply == RespOk && Live(o.store, "key", now) && o.store["key"].value == "value"
    ensures Execute(store["key" := NewObj("value", -1, now)], Command("GET", ["key"]), now).reply == BulkString("value")
    ensures Encode(Execute(store, Command("UNKNOWN", []), now).reply) == "-CMD NOT FOUND\r\n"
  {
  }
}

=== FILE: resp.dfy ===
/** The wire protocol: the RESP2 value shapes, their encoding (section
    "RESP protocol description" of the Redis serialization protocol
    specification, version 2), and the request decoder readSimpleString /
    readInt64 / readBulkString / readArray, each a pure function from a byte
    buffer to the decoded value and the number of bytes consumed.

    Each byte is modelled as one `char`; every frame in the model is ASCII. */
module Resp {
  import opened Common
  import Decimal

  /** A reply or request value. Handlers build replies from these shapes;
      `Error` is reply-only. `Null` is the null bulk string `$-1` and
      `NullArray` the null array `*-1`. */
  datatype Value =
    | SimpleString(s: string)
    | Error(msg: string)
    | Integer(n: int)
    | BulkString(s: string)
    | Null
    | NullArray
    | Array(elems: seq<Value>)

  /** A decoder result: the value and how many bytes of the buffer it took,
      or a protocol error for a malformed buffer. */
  datatype Parse<T> = Ok(value: T, consumed: nat) | ProtocolError

  const MinInt64: int := -0x8000_0000_0000_0000
  const MaxInt64: int := 0x7FFF_FFFF_FFFF_FFFF

  predicate IsInt64(n: int)
  {
    MinInt64 <= n <= MaxInt64
  }

  predicate NoCR(s: string)
  {
    forall k :: 0 <= k < |s| ==> s[k] != '\r'
  }

  // ---------------------------------------------------------------------
  // Encoding (RESP2 wire grammar)
  // ---------------------------------------------------------------------

  /** The first byte of each frame shape, on which the decoder dispatches. */
  function Sigil(v: Value): char
  {
    match v
    case SimpleString(_) => '+'
    case Error(_) => '-'
    case Integer(_) => ':'
    case BulkString(_) => '$'
    case Null => '$'
    case NullArray => '*'
    case Array(_) => '*'
  }

  /** Every frame starts with its shape's sigil (FrameEnds: and ends with
      CRLF). */
  function Encode(v: Value): (e: string)
    ensures |e| >= 3 && e[0] == Sigil(v)
  {
    match v
    case SimpleString(s) => "+" + s + "\r\n"
    case Error(m) => "-" + m + "\r\n"
    case Integer(n) => ":" + Decimal.Format(n) + "\r\n"
    case BulkString(s) => "$" + Decimal.Format(|s|) + "\r\n" + s + "\r\n"
    case Null => "$-1\r\n"
    case NullArray => "*-1\r\n"
    case Array(es) => "*" + Decimal.Format(|es|) + "\r\n" + EncodeAll(es)
  }

  /** The frames of the elements, back to back. */
  function EncodeAll(vs: seq<Value>): string
  {
    if |vs| == 0 then "" else Encode(vs[0]) + EncodeAll(vs[1..])
  }

  predicate EndsWithCRLF(s: string)
  {
    |s| >= 2 && s[|s| - 2] == '\r' && s[|s| - 1] == '\n'
  }

  lemma CRLFSuffix(a: string, b: string)
    requires EndsWithCRLF(b) || (b == [] && EndsWithCRLF(a))
    ensures EndsWithCRLF(a + b)
  {
  }

  /** Every frame ends with CRLF: a line-framed shape ends with its own, an
      array with its last element's, or with its header's when empty. */
  lemma {:induction false} FrameEnds(v: Value)
    ensures EndsWithCRLF(Encode(v))
    decreases v, 1
  {
    match v
    case SimpleString(s) => CRLFSuffix("+" + s, "\r\n");
    case Error(m) => CRLFSuffix("-" + m, "\r\n");
    case Integer(n) => CRLFSuffix(":" + Decimal.Format(n), "\r\n");
    case BulkString(s) => CRLFSuffix("$" + Decimal.Format(|s|) + "\r\n" + s, "\r\n");
    case Null =>
    case NullArray =>
    case Array(es) =>
      var h := "*" + Decimal.Format(|es|) + "\r\n";
      CRLFSuffix("*" + Decimal.Format(|es|), "\r\n");
      AllFramesEnd(es);
      CRLFSuffix(h, EncodeAll(es));
  }

  lemma {:induction false} AllFramesEnd(vs: seq<Value>)
    ensures EndsWithCRLF(EncodeAll(vs)) || EncodeAll(vs) == []
    decreases vs, 0
  {
    if |vs| > 0 {
      FrameEnds(vs[0]);
      AllFramesEnd(vs[1..]);
      if EncodeAll(vs[1..]) == [] {
        CRLFSuffix(Encode(vs[0]), []);
      } else {
        CRLFSuffix(Encode(vs[0]), EncodeAll(vs[1..]));
      }
    }
  }

  /** The values the request decoder can produce: every shape but the
      error reply, simple strings free of CR, integers within int64. */
  predicate Decodable(v: Value)
  {
    match v
    case SimpleString(s) => NoCR(s)
    case Error(_) => false
    case Integer(n) => IsInt64(n)
    case BulkString(_) => true
    case Null => true
    case NullArray => true
    case Array(es) => forall e :: e in es ==> Decodable(e)
  }

  // ---------------------------------------------------------------------
  // Decoding
  // ---------------------------------------------------------------------

  /** Index of the first CR at or after `i`, if any. */
  function FindCR(d: string, i: nat): (r: Option<nat>)
    requires i <= |d|
    ensures r.Some? ==> i <= r.value < |d| && d[r.value] == '\r' && NoCR(d[i..r.value])
    ensures r.None? ==> NoCR(d[i..])
    decreases |d| - i
  {
    if i == |d| then None
    else if d[i] == '\r' then Some(i)
    else
      var r := FindCR(d, i + 1);
      assert r.Some? ==> d[i..r.value] == [d[i]] + d[i + 1..r.value];
      assert d[i..] == [d[i]] + d[i + 1..];
      r
  }

  /** The text between the sigil at d[0] and the first CR, which must be
      followed by LF; the count covers sigil, text and CRLF. */
  function ReadLine(d: string): (r: Parse<string>)
    requires |d| > 0
    ensures r.Ok? ==> r.consumed == |r.value| + 3 <= |d| && NoCR(r.value)
  {
    match FindCR(d, 1)
    case None => ProtocolError
    case Some(k) =>
      if k + 1 < |d| && d[k + 1] == '\n' then Ok(d[1..k], k + 2) else ProtocolError
  }

  /** A signed decimal header line (":", "$" and "*" frames). */
  function ReadHeader(d: string): (r: Parse<int>)
    requires |d| > 0
    ensures r.Ok? ==> 4 <= r.consumed <= |d|
  {
    match ReadLine(d)
    case ProtocolError => ProtocolError
    case Ok(text, n) =>
      match Decimal.Parse(text)
      case None => ProtocolError
      case Some(x) => Ok(x, n)
  }

  /** readSimpleString: "+<text>\r\n". */
  function ReadSimpleString(d: string): (r: Parse<string>)
    ensures r.Ok? ==> 0 < r.consumed <= |d| && Decodable(SimpleString(r.value))
  {
    if |d| == 0 || d[0] != '+' then ProtocolError else ReadLine(d)
  }

  /** readInt64: ":<signed decimal>\r\n", the value within int64. */
  function ReadInt64(d: string): (r: Parse<int>)
    ensures r.Ok? ==> 0 < r.consumed <= |d| && IsInt64(r.value)
  {
    if |d| == 0 || d[0] != ':' then ProtocolError
    else
      match ReadHeader(d)
      case ProtocolError => ProtocolError
      case Ok(x, n) => if IsInt64(x) then Ok(x, n) else ProtocolError
  }

  /** readBulkString: "$<len>\r\n<len bytes>\r\n", or the null bulk string
      "$-1\r\n" (None). Any other negative length is malformed. */
  function ReadBulkString(d: string): (r: Parse<Option<string>>)
    ensures r.Ok? ==> 0 < r.consumed <= |d|
    ensures r.Ok? && r.value.Some? ==> r.consumed > |r.value.value|
  {
    if |d| == 0 || d[0] != '$' then ProtocolError
    else
      match ReadHeader(d)
      case ProtocolError => ProtocolError
      case Ok(len, k) =>
        if len == -1 then Ok(None, k)
        else if len < 0 || k + len + 2 > |d| || d[k + len] != '\r' || d[k + len + 1] != '\n' then ProtocolError
        else Ok(Some(d[k..k + len]), k + len + 2)
  }

  /** Decodes one element by its leading sigil. */
  function DecodeOne(d: string): (r: Parse<Value>)
    ensures r.Ok? ==> 0 < r.consumed <= |d| && Decodable(r.value)
    decreases |d|, 1, 0
  {
    if |d| == 0 then ProtocolError
    else if d[0] == '+' then
      match ReadSimpleString(d)
      case ProtocolError => ProtocolError
      case Ok(s, n) => Ok(SimpleString(s), n)
    else if d[0] == ':' then
      match ReadInt64(d)
      case ProtocolError => ProtocolError
      case Ok(x, n) => Ok(Integer(x), n)
    else if d[0] == '$' then
      match ReadBulkString(d)
      case ProtocolError => ProtocolError
      case Ok(None, n) => Ok(Null, n)
      case Ok(Some(s), n) => Ok(BulkString(s), n)
    else if d[0] == '*' then
      match ReadArray(d)
      case ProtocolError => ProtocolError
      case Ok(None, n) => Ok(NullArray, n)
      case Ok(Some(es), n) => Ok(Array(es), n)
    else ProtocolError
  }

  /** readArray: "*<count>\r\n" followed by `count` elements, each decoded by
      its own sigil, the consumed counts of header and elements adding up; or
      the null array "*-1\r\n" (None). Any other negative count is
      malformed. */
  function ReadArray(d: string): (r: Parse<Option<seq<Value>>>)
    ensures r.Ok? ==> 0 < r.consumed <= |d|
    ensures r.Ok? && r.value.Some? ==> forall e :: e in r.value.value ==> Decodable(e)
    decreases |d|, 0, 0
  {
    if |d| == 0 || d[0] != '*' then ProtocolError
    else
      match ReadHeader(d)
      case ProtocolError => ProtocolError
      case Ok(count, k) =>
        if count == -1 then Ok(None, k)
        else if count < 0 then ProtocolError
        else
          match ReadElems(d[k..], count)
          case ProtocolError => ProtocolError
          case Ok(es, m) => Ok(Some(es), k + m)
  }

  /** `count` consecutive elements at the front of `d`. */
  function ReadElems(d: string, count: nat): (r: Parse<seq<Value>>)
    ensures r.Ok? ==> r.consumed <= |d| && |r.value| == count
    ensures r.Ok? ==> forall e :: e in r.value ==> Decodable(e)
    decreases |d|, 2, count
  {
    if count == 0 then Ok([], 0)
    else
      match DecodeOne(d)
      case ProtocolError => ProtocolError
      case Ok(v, n) =>
        match ReadElems(d[n..], count - 1)
        case ProtocolError => ProtocolError
        case Ok(vs, m) => Ok([v] + vs, n + m)
  }

  // ---------------------------------------------------------------------
  // Round trip: the decoder reads back exactly what the encoder wrote and
  // stops right after the frame's final CRLF, whatever follows it.
  // ---------------------------------------------------------------------

  lemma FindFirstCR(d: string, i: nat, k: nat)
    requires i <= k < |d| && d[k] == '\r' && NoCR(d[i..k])
    ensures FindCR(d, i) == Some(k)
  {
  }

  lemma LineRoundTrip(sigil: char, text: string, rest: string)
    requires NoCR(text)
    ensures ReadLine([sigil] + text + "\r\n" + rest) == Ok(text, |text| + 3)
  {
    var d := [sigil] + text + "\r\n" + rest;
    assert d[1..|text| + 1] == text;
    FindFirstCR(d, 1, |text| + 1);
  }

  lemma HeaderRoundTrip(sigil: char, n: int, rest: string)
    ensures ReadHeader([sigil] + Decimal.Format(n) + "\r\n" + rest) == Ok(n, |Decimal.Format(n)| + 3)
  {
    var text := Decimal.Format(n);
    assert NoCR(text);
    LineRoundTrip(sigil, text, rest);
    Decimal.ParseFormat(n);
  }

  lemma BulkRoundTrip(s: string, rest: string)
    ensures ReadBulkString(Encode(BulkString(s)) + rest) == Ok(Some(s), |Encode(BulkString(s))|)
  {
    var d := Encode(BulkString(s)) + rest;
    var h := Decimal.Format(|s|);
    var k := |h| + 3;
    assert d == ['$'] + h + "\r\n" + (s + "\r\n" + rest);
    HeaderRoundTrip('$', |s|, s + "\r\n" + rest);
    assert d[k..k + |s|] == s;
    assert d[k + |s|] == '\r' && d[k + |s| + 1] == '\n';
  }

  lemma {:induction false} ArrayRoundTrip(es: seq<Value>, rest: string)
    requires forall e :: e in es ==> Decodable(e)
    ensures ReadArray(Encode(Array(es)) + rest) == Ok(Some(es), |Encode(Array(es))|)
    decreases Array(es), 0
  {
    ArrayLayout(es, rest);
    HeaderRoundTrip('*', |es|, EncodeAll(es) + rest);
    DecodeEncodeAll(es, rest);
  }

  /** An encoded array is its header line followed by its encoded elements. */
  lemma ArrayLayout(es: seq<Value>, rest: string)
    ensures var d := Encode(Array(es)) + rest;
      var k := |Decimal.Format(|es|)| + 3;
      && d == ['*'] + Decimal.Format(|es|) + "\r\n" + (EncodeAll(es) + rest)
      && k <= |d| && d[k..] == EncodeAll(es) + rest
      && |Encode(Array(es))| == k + |EncodeAll(es)|
  {
    var d := Encode(Array(es)) + rest;
    var k := |Decimal.Format(|es|)| + 3;
    assert d == ['*'] + Decimal.Format(|es|) + "\r\n" + (EncodeAll(es) + rest);
    assert d[k..] == EncodeAll(es) + rest;
  }

  lemma {:induction false} DecodeEncode(v: Value, rest: string)
    requires Decodable(v)
    ensures DecodeOne(Encode(v) + rest) == Ok(v, |Encode(v)|)
    decreases v, 1
  {
    match v
    case SimpleString(s) =>
      assert Encode(v) + rest == ['+'] + s + "\r\n" + rest;
      LineRoundTrip('+', s, rest);
    case Integer(n) =>
      assert Encode(v) + rest == [':'] + Decimal.Format(n) + "\r\n" + rest;
      HeaderRoundTrip(':', n, rest);
    case BulkString(s) =>
      BulkRoundTrip(s, rest);
    case Null =>
      assert Encode(v) + rest == ['$'] + "-1\r\n" + rest;
      NullHeader('$', rest);
    case NullArray =>
      assert Encode(v) + rest == ['*'] + "-1\r\n" + rest;
      NullHeader('*', rest);
    case Array(es) =>
      ArrayRoundTrip(es, rest);
  }

  /** The header line "-1" of both null frames. */
  lemma NullHeader(sigil: char, rest: string)
    ensures ReadHeader([sigil] + "-1\r\n" + rest) == Ok(-1, 5)
  {
    assert Decimal.Format(-1) == "-1";
    assert [sigil] + "-1\r\n" + rest == [sigil] + Decimal.Format(-1) + "\r\n" + rest;
    HeaderRoundTrip(sigil, -1, rest);
  }

  lemma {:induction false} DecodeEncodeAll(vs: seq<Value>, rest: string)
    requires forall e :: e in vs ==> Decodable(e)
    ensures ReadElems(EncodeAll(vs) + rest, |vs|) == Ok(vs, |EncodeAll(vs)|)
    decreases vs, 0
  {
    if |vs| > 0 {
      var tail := EncodeAll(vs[1..]) + rest;
      var d := EncodeAll(vs) + rest;
      var n := |Encode(vs[0])|;
      assert d == Encode(vs[0]) + tail;
      DecodeEncode(vs[0], tail);
      assert d[n..] == tail;
      DecodeEncodeAll(vs[1..], rest);
      ElemsStep(d, |vs|, vs[0], n, vs[1..], |EncodeAll(vs[1..])|);
      assert [vs[0]] + vs[1..] == vs;
    }
  }

  /** ReadElems takes one element off the front and reads the rest after it. */
  lemma ElemsStep(d: string, count: nat, v: Value, n: nat, vs: seq<Value>, m: nat)
    requires count > 0 && n <= |d|
    requires DecodeOne(d) == Ok(v, n) && ReadElems(d[n..], count - 1) == Ok(vs, m)
    ensures ReadElems(d, count) == Ok([v] + vs, n + m)
  {
  }

  /** A request is an array of bulk strings; decoding its encoding gives the
      argument vector back and consumes the whole frame. */
  function Request(args: seq<string>): (v: Value)
    ensures Decodable(v)
  {
    Array(seq(|args|, i requires 0 <= i < |args| => BulkString(args[i])))
  }

  lemma RequestRoundTrip(args: seq<string>)
    ensures DecodeOne(Encode(Request(args))) == Ok(Request(args), |Encode(Request(args))|)
    ensures var r := DecodeOne(Encode(Request(args)));
      && r.Ok? && r.value.Array? && |r.value.elems| == |args|
      && forall i :: 0 <= i < |args| ==> r.value.elems[i] == BulkString(args[i])
  {
    DecodeEncode(Request(args), "");
    assert Encode(Request(args)) + "" == Encode(Request(args));
  }

  // ---------------------------------------------------------------------
  // The decoder's recorded test vectors
  // ---------------------------------------------------------------------

  lemma SimpleStringVector()
    ensures ReadSimpleString("+OK\r\n") == Ok("OK", 5)
  {
    LineRoundTrip('+', "OK", "");
    assert "+OK\r\n" == ['+'] + "OK" + "\r\n" + "";
  }

  lemma FormatVectors()
    ensures Decimal.Format(0) == "0" && Decimal.Format(3) == "3" && Decimal.Format(4) == "4"
    ensures Decimal.Format(6) == "6" && Decimal.Format(42) == "42"
  {
  }

  lemma FormatFiveDigits()
    ensures Decimal.Format(12345) == "12345" && Decimal.Format(-12345) == "-12345"
  {
    assert Decimal.Digits(12) == "12";
    assert Decimal.Digits(123) == "123";
    assert Decimal.Digits(1234) == "1234";
  }

  /** The frame of an integer whose decimal text is t. */
  lemma EncodeInteger(n: int, t: string)
    requires Decimal.Format(n) == t
    ensures Encode(Integer(n)) == ":" + t + "\r\n"
  {
  }

  /** The frame of a bulk string whose length reads t. */
  lemma EncodeBulk(s: string, t: string)
    requires Decimal.Format(|s|) == t
    ensures Encode(BulkString(s)) == "$" + t + "\r\n" + s + "\r\n"
  {
  }

  lemma Int64Vector(d: string, n: int, t: string)
    requires Decimal.Format(n) == t && IsInt64(n)
    requires d == ":" + t + "\r\n"
    ensures ReadInt64(d) == Ok(n, |d|)
  {
    EncodeInteger(n, t);
    DecodeEncode(Integer(n), "");
    assert Encode(Integer(n)) + "" == d;
  }

  lemma Int64Vectors()
    ensures ReadInt64(":12345\r\n") == Ok(12345, 8)
    ensures ReadInt64(":-12345\r\n") == Ok(-12345, 9)
  {
    FormatFiveDigits();
    Int64Vector(":12345\r\n", 12345, "12345");
    Int64Vector(":-12345\r\n", -12345, "-12345");
  }

  lemma BulkStringVector(d: string, s: string, t: string)
    requires Decimal.Format(|s|) == t
    requires d == "$" + t + "\r\n" + s + "\r\n"
    ensures ReadBulkString(d) == Ok(Some(s), |d|)
  {
    EncodeBulk(s, t);
    DecodeEncode(BulkString(s), "");
    assert Encode(BulkString(s)) + "" == d;
  }

  lemma BulkStringVectors()
    ensures ReadBulkString("$6\r\nfoobar\r\n") == Ok(Some("foobar"), 12)
    ensures ReadBulkString("$0\r\n\r\n") == Ok(Some(""), 6)
  {
    FormatVectors();
    BulkStringVector("$6\r\nfoobar\r\n", "foobar", "6");
    BulkStringVector("$0\r\n\r\n", "", "0");
  }

  lemma EncodeThree(x: Value, y: Value, z: Value)
    ensures EncodeAll([x, y, z]) == Encode(x) + Encode(y) + Encode(z)
  {
    assert [x, y, z][1..] == [y, z];
    assert [y, z][1..] == [z];
    assert [z][1..] == [];
    assert EncodeAll([z]) == Encode(z);
    assert EncodeAll([y, z]) == Encode(y) + Encode(z);
  }

  /** A three-element array: the count header, then the elements' frames. */
  lemma EncodeArrayOfThree(x: Value, y: Value, z: Value)
    ensures Encode(Array([x, y, z])) == "*3\r\n" + Encode(x) + Encode(y) + Encode(z)
  {
    FormatVectors();
    EncodeThree(x, y, z);
  }

  /** Any buffer that holds exactly one encoded array decodes to it. */
  lemma ReadArrayOfFrame(d: string, es: seq<Value>)
    requires forall e :: e in es ==> Decodable(e)
    requires d == Encode(Array(es))
    ensures ReadArray(d) == Ok(Some(es), |d|)
  {
    ArrayRoundTrip(es, "");
    assert d + "" == d;
  }

  lemma ArrayOfStringsFrame(es: seq<Value>)
    requires es == [BulkString("foo"), BulkString("bar"), BulkString("baz")]
    ensures Encode(Array(es)) == "*3\r\n$3\r\nfoo\r\n$3\r\nbar\r\n$3\r\nbaz\r\n"
  {
    FormatVectors();
    EncodeArrayOfThree(es[0], es[1], es[2]);
    EncodeBulk("foo", "3");
    EncodeBulk("bar", "3");
    EncodeBulk("baz", "3");
    assert "*3\r\n$3\r\nfoo\r\n$3\r\nbar\r\n$3\r\nbaz\r\n"
        == "*3\r\n" + "$3\r\nfoo\r\n" + "$3\r\nbar\r\n" + "$3\r\nbaz\r\n";
  }

  lemma MixedArrayFrame(es: seq<Value>)
    requires es == [BulkString("foo"), Integer(42), BulkString("quxx")]
    ensures Encode(Array(es)) == "*3\r\n$3\r\nfoo\r\n:42\r\n$4\r\nquxx\r\n"
  {
    FormatVectors();
    EncodeArrayOfThree(es[0], es[1], es[2]);
    EncodeBulk("foo", "3");
    EncodeInteger(42, "42");
    EncodeBulk("quxx", "4");
    assert "*3\r\n$3\r\nfoo\r\n:42\r\n$4\r\nquxx\r\n"
        == "*3\r\n" + "$3\r\nfoo\r\n" + ":42\r\n" + "$4\r\nquxx\r\n";
  }

  /** Three bulk strings: a 4-byte header plus three 9-byte elements. */
  lemma ArrayOfStringsVector()
    ensures ReadArray("*3\r\n$3\r\nfoo\r\n$3\r\nbar\r\n$3\r\nbaz\r\n")
         == Ok(Some([BulkString("foo"), BulkString("bar"), BulkString("baz")]), 31)
  {
    ArrayOfStringsFrame([BulkString("foo"), BulkString("bar"), BulkString("baz")]);
    ReadArrayOfFrame("*3\r\n$3\r\nfoo\r\n$3\r\nbar\r\n$3\r\nbaz\r\n",
                     [BulkString("foo"), BulkString("bar"), BulkString("baz")]);
  }

  /** Each element is decoded by its own sigil; the integer stays an integer. */
  lemma ArrayWithMixedTypesVector()
    ensures ReadArray("*3\r\n$3\r\nfoo\r\n:42\r\n$4\r\nquxx\r\n")
         == Ok(Some([BulkString("foo"), Integer(42), BulkString("quxx")]), 28)
  {
    MixedArrayFrame([BulkString("foo"), Integer(42), BulkString("quxx")]);
    ReadArrayOfFrame("*3\r\n$3\r\nfoo\r\n:42\r\n$4\r\nquxx\r\n",
                     [BulkString("foo"), Integer(42), BulkString("quxx")]);
  }

  /** The null frames of RESP2: "$-1\r\n" is the null bulk string and
      "*-1\r\n" the null array, five bytes each. */
  lemma NullVectors()
    ensures ReadBulkString("$-1\r\n") == Ok(None, 5) && DecodeOne("$-1\r\n") == Ok(Null, 5)
    ensures ReadArray("*-1\r\n") == Ok(None, 5) && DecodeOne("*-1\r\n") == Ok(NullArray, 5)
  {
    NullHeader('$', "");
    assert "$-1\r\n" == ['$'] + "-1\r\n" + "";
    NullHeader('*', "");
    assert "*-1\r\n" == ['*'] + "-1\r\n" + "";
  }
}

=== FILE: simple_set.dfy ===
// SimpleSet: a named finite set of strings whose Add and Rem report how
// many members they actually added or removed.

module SimpleSets {
  import opened Common

  datatype SimpleSet = SimpleSet(key: string, dict: set<string>)

  /** The members named in one call, duplicates collapsed. */
  function Elems(ms: seq<string>): set<string>
  {
    set m | m in ms
  }

  function NewSimpleSet(key: string): (s: SimpleSet)
    ensures s.key == key && s.dict == {} && |s.dict| == 0
  {
    SimpleSet(key, {})
  }

  lemma ElemsCons(ms: seq<string>)
    requires |ms| > 0
    ensures Elems(ms) == {ms[0]} + Elems(ms[1..])
  {
    assert forall m :: m in ms <==> m == ms[0] || m in ms[1..];
  }

  /** The first member adds one if it is new; the rest are counted against
      the set that already holds it. */
  lemma GrowthSplit(d: set<string>, x: string, rest: set<string>)
    ensures |({x} + rest) - d| == (if x in d then 0 else 1) + |rest - (d + {x})|
  {
    assert ({x} + rest) - d == ({x} - d) + (rest - (d + {x}));
    assert ({x} - d) !! (rest - (d + {x}));
    if x in d {
      assert {x} - d == {};
    } else {
      assert {x} - d == {x};
    }
  }

  /** The first member removes one if it is present; the rest are counted
      against the set without it. */
  lemma ShrinkSplit(d: set<string>, x: string, rest: set<string>)
    ensures |({x} + rest) * d| == (if x in d then 1 else 0) + |rest * (d - {x})|
  {
    assert ({x} + rest) * d == ({x} * d) + (rest * (d - {x}));
    assert ({x} * d) !! (rest * (d - {x}));
    if x in d {
      assert {x} * d == {x};
    } else {
      assert {x} * d == {};
    }
  }

  /** Add(members...): each member not yet present is inserted and counted;
      a member repeated within the call is counted once. */
  function Add(s: SimpleSet, ms: seq<string>): (r: (SimpleSet, int))
    ensures r.0.key == s.key
    ensures r.0.dict == s.dict + Elems(ms)
    ensures r.1 >= 0
    decreases |ms|
  {
    if |ms| == 0 then (s, 0)
    else
      var added := if ms[0] in s.dict then 0 else 1;
      var (t, n) := Add(SimpleSet(s.key, s.dict + {ms[0]}), ms[1..]);
      ElemsCons(ms);
      (t, added + n)
  }

  /** Add's reply counts the distinct members that were not yet present. */
  lemma {:induction false} AddCount(s: SimpleSet, ms: seq<string>)
    ensures Add(s, ms).1 == |Elems(ms) - s.dict|
    decreases |ms|
  {
    if |ms| > 0 {
      AddCount(SimpleSet(s.key, s.dict + {ms[0]}), ms[1..]);
      ElemsCons(ms);
      GrowthSplit(s.dict, ms[0], Elems(ms[1..]));
    }
  }

  /** Rem(members...): each member present is removed and counted. */
  function Rem(s: SimpleSet, ms: seq<string>): (r: (SimpleSet, int))
    ensures r.0.key == s.key
    ensures r.0.dict == s.dict - Elems(ms)
    ensures r.1 >= 0
    decreases |ms|
  {
    if |ms| == 0 then (s, 0)
    else
      var removed := if ms[0] in s.dict then 1 else 0;
      var (t, n) := Rem(SimpleSet(s.key, s.dict - {ms[0]}), ms[1..]);
      ElemsCons(ms);
      (t, removed + n)
  }

  /** Rem's reply counts the distinct members that were present. */
  lemma {:induction false} RemCount(s: SimpleSet, ms: seq<string>)
    ensures Rem(s, ms).1 == |Elems(ms) * s.dict|
    decreases |ms|
  {
    if |ms| > 0 {
      RemCount(SimpleSet(s.key, s.dict - {ms[0]}), ms[1..]);
      ElemsCons(ms);
      ShrinkSplit(s.dict, ms[0], Elems(ms[1..]));
    }
  }

  /** IsMember(member): 1 when present, 0 otherwise. */
  function IsMember(s: SimpleSet, m: string): (r: int)
    ensures r == 1 <==> m in s.dict
    ensures r == 0 <==> m !in s.dict
  {
    if m in s.dict then 1 else 0
  }

  /** Members(): every member once, in no particular order. */
  method Members(s: SimpleSet) returns (xs: seq<string>)
    ensures Elems(xs) == s.dict
    ensures Distinct(xs)
    ensures |xs| == |s.dict|
  {
    xs := [];
    var rest := s.dict;
    while rest != {}
      invariant rest !! Elems(xs)
      invariant rest + Elems(xs) == s.dict
      invariant Distinct(xs)
      invariant |xs| + |rest| == |s.dict|
      decreases |rest|
    {
      var m :| m in rest;
      xs := xs + [m];
      rest := rest - {m};
    }
  }

  // -----------------------------------------------------------------------
  // How the counts and the contents relate
  // -----------------------------------------------------------------------

  /** Add's reply is exactly the growth of the set. */
  lemma AddCountIsGrowth(s: SimpleSet, ms: seq<string>)
    ensures |Add(s, ms).0.dict| == |s.dict| + Add(s, ms).1
  {
    AddCount(s, ms);
    var d := s.dict;
    var e := Elems(ms);
    assert d + e == d + (e - d);
    assert d !! (e - d);
  }

  /** Rem's reply is exactly the shrinkage of the set. */
  lemma RemCountIsShrinkage(s: SimpleSet, ms: seq<string>)
    ensures |Rem(s, ms).0.dict| + Rem(s, ms).1 == |s.dict|
  {
    RemCount(s, ms);
    var d := s.dict;
    var e := Elems(ms);
    assert d == (d - e) + (e * d);
    assert (d - e) !! (e * d);
  }

  /** Adding the same members again adds nothing and changes nothing. */
  lemma AddIdempotent(s: SimpleSet, ms: seq<string>)
    ensures Add(Add(s, ms).0, ms).0 == Add(s, ms).0
    ensures Add(Add(s, ms).0, ms).1 == 0
  {
    AddCount(Add(s, ms).0, ms);
    assert Elems(ms) - Add(s, ms).0.dict == {};
  }

  /** Removing what was just added leaves the other members. */
  lemma RemUndoesAdd(s: SimpleSet, ms: seq<string>)
    ensures Rem(Add(s, ms).0, ms).0.dict == s.dict - Elems(ms)
    ensures Rem(Add(s, ms).0, ms).1 == |Elems(ms)|
  {
    RemCount(Add(s, ms).0, ms);
    assert Elems(ms) * Add(s, ms).0.dict == Elems(ms);
  }

  /** A listing with no duplicates is as long as the set it lists. */
  lemma {:induction false} DistinctListingSize(xs: seq<string>)
    requires Distinct(xs)
    ensures |Elems(xs)| == |xs|
  {
    if |xs| > 0 {
      DistinctListingSize(xs[1..]);
      assert Elems(xs) == {xs[0]} + Elems(xs[1..]) by {
        assert forall m :: m in xs <==> m == xs[0] || m in xs[1..];
      }
      assert xs[0] !in Elems(xs[1..]);
    }
  }

  /** A listing with no duplicates of a one-member set is that member. */
  lemma SingletonListing(xs: seq<string>, x: string)
    requires Distinct(xs) && Elems(xs) == {x}
    ensures xs == [x]
  {
    DistinctListingSize(xs);
    assert xs[0] in Elems(xs);
  }

  // -----------------------------------------------------------------------
  // The recorded scenarios
  // -----------------------------------------------------------------------

  /** 1 when adding `m` to `d` grows it, 0 when it is already there. */
  function Fresh(d: set<string>, m: string): int
  {
    if m in d then 0 else 1
  }

  lemma AddOne(s: SimpleSet, x: string)
    ensures Add(s, [x]).0.dict == s.dict + {x}
    ensures Add(s, [x]).1 == Fresh(s.dict, x)
  {
    assert Elems([x]) == {x} by {
      assert x in [x];
    }
    if x in s.dict {
      assert {x} - s.dict == {};
    } else {
      assert {x} - s.dict == {x};
    }
  }

  lemma RemOne(s: SimpleSet, x: string)
    ensures Rem(s, [x]).0.dict == s.dict - {x}
    ensures Rem(s, [x]).1 == 1 - Fresh(s.dict, x)
  {
    assert Elems([x]) == {x} by {
      assert x in [x];
    }
    if x in s.dict {
      assert {x} * s.dict == {x};
    } else {
      assert {x} * s.dict == {};
    }
  }

  lemma ElemsThree(x: string, y: string, z: string)
    ensures Elems([x, y, z]) == {x, y, z}
  {
    assert [x, y, z][0] == x && [x, y, z][1] == y && [x, y, z][2] == z;
  }

  /** Add and Rem take the members one at a time. */
  lemma AddCons(s: SimpleSet, ms: seq<string>)
    requires |ms| > 0
    ensures Add(s, ms).1 == Fresh(s.dict, ms[0]) + Add(SimpleSet(s.key, s.dict + {ms[0]}), ms[1..]).1
  {
  }

  lemma RemCons(s: SimpleSet, ms: seq<string>)
    requires |ms| > 0
    ensures Rem(s, ms).1 == 1 - Fresh(s.dict, ms[0]) + Rem(SimpleSet(s.key, s.dict - {ms[0]}), ms[1..]).1
  {
  }

  lemma AddTwo(s: SimpleSet, y: string, z: string)
    requires y != z
    ensures Add(s, [y, z]).1 == Fresh(s.dict, y) + Fresh(s.dict, z)
  {
    assert [y, z][1..] == [z];
    AddCons(s, [y, z]);
    AddOne(SimpleSet(s.key, s.dict + {y}), z);
  }

  /** Three distinct members: each one that is new counts. */
  lemma AddThree(s: SimpleSet, x: string, y: string, z: string)
    requires x != y && x != z && y != z
    ensures Add(s, [x, y, z]).0.dict == s.dict + {x, y, z}
    ensures Add(s, [x, y, z]).1 == Fresh(s.dict, x) + Fresh(s.dict, y) + Fresh(s.dict, z)
  {
    ElemsThree(x, y, z);
    assert [x, y, z][1..] == [y, z];
    AddCons(s, [x, y, z]);
    AddTwo(SimpleSet(s.key, s.dict + {x}), y, z);
  }

  lemma RemTwo(s: SimpleSet, y: string, z: string)
    requires y != z
    ensures Rem(s, [y, z]).1 == 2 - Fresh(s.dict, y) - Fresh(s.dict, z)
  {
    assert [y, z][1..] == [z];
    RemCons(s, [y, z]);
    RemOne(SimpleSet(s.key, s.dict - {y}), z);
  }

  /** Three distinct members: each one that is present counts. */
  lemma RemThree(s: SimpleSet, x: string, y: string, z: string)
    requires x != y && x != z && y != z
    ensures Rem(s, [x, y, z]).0.dict == s.dict - {x, y, z}
    ensures Rem(s, [x, y, z]).1 == 3 - Fresh(s.dict, x) - Fresh(s.dict, y) - Fresh(s.dict, z)
  {
    ElemsThree(x, y, z);
    assert [x, y, z][1..] == [y, z];
    RemCons(s, [x, y, z]);
    RemTwo(SimpleSet(s.key, s.dict - {x}), y, z);
  }

  lemma NewSimpleSetVector()
    ensures NewSimpleSet("test_key").key == "test_key" && |NewSimpleSet("test_key").dict| == 0
  {
  }

  lemma AddVectorStep3(s: SimpleSet)
    requires s.dict == {"member1"}
    ensures Add(s, ["member2", "member3", "member4"]).0.dict == {"member1", "member2", "member3", "member4"}
    ensures Add(s, ["member2", "member3", "member4"]).1 == 3
  {
    AddThreeNew(s, "member1", "member2", "member3", "member4");
  }

  lemma AddThreeNew(s: SimpleSet, a: string, x: string, y: string, z: string)
    requires s.dict == {a}
    requires a != x && a != y && a != z && x != y && x != z && y != z
    ensures Add(s, [x, y, z]).0.dict == {a, x, y, z}
    ensures Add(s, [x, y, z]).1 == 3
  {
    AddThree(s, x, y, z);
  }

  lemma AddVectorStep4(s: SimpleSet)
    requires s.dict == {"member1", "member2", "member3", "member4"}
    ensures Add(s, ["member2", "member5", "member6"]).0.dict
         == {"member1", "member2", "member3", "member4", "member5", "member6"}
    ensures Add(s, ["member2", "member5", "member6"]).1 == 2
  {
    AddOneOldTwoNew(s, "member1", "member2", "member3", "member4", "member5", "member6");
  }

  lemma AddOneOldTwoNew(s: SimpleSet, a: string, b: string, c: string, d: string, e: string, f: string)
    requires s.dict == {a, b, c, d}
    requires e != a && e != b && e != c && e != d && f != a && f != b && f != c && f != d && e != f && b != e && b != f
    ensures Add(s, [b, e, f]).0.dict == {a, b, c, d, e, f}
    ensures Add(s, [b, e, f]).1 == 2
  {
    AddThree(s, b, e, f);
    assert {a, b, c, d} + {b, e, f} == {a, b, c, d, e, f};
  }

  /** The sequence of Adds in the recorded scenario: 1, then 0 for the
      repeat, then 3, then 2 because member2 is already present. */
  lemma AddVector()
    ensures var (s1, a1) := Add(NewSimpleSet("test"), ["member1"]);
      var (s2, a2) := Add(s1, ["member1"]);
      var (s3, a3) := Add(s2, ["member2", "member3", "member4"]);
      var (s4, a4) := Add(s3, ["member2", "member5", "member6"]);
      && a1 == 1 && a2 == 0 && a3 == 3 && a4 == 2
      && s4.dict == {"member1", "member2", "member3", "member4", "member5", "member6"}
  {
    var s0 := NewSimpleSet("test");
    AddOne(s0, "member1");
    var s1 := Add(s0, ["member1"]).0;
    AddOne(s1, "member1");
    var s2 := Add(s1, ["member1"]).0;
    AddVectorStep3(s2);
    AddVectorStep4(Add(s2, ["member2", "member3", "member4"]).0);
  }

  lemma RemVectorStep3(s: SimpleSet)
    requires s.dict == {"member2", "member3", "member4"}
    ensures Rem(s, ["member2", "member3", "member5"]).0.dict == {"member4"}
    ensures Rem(s, ["member2", "member3", "member5"]).1 == 2
  {
    RemTwoOfThree(s, "member2", "member3", "member4", "member5");
  }

  lemma RemTwoOfThree(s: SimpleSet, b: string, c: string, d: string, e: string)
    requires s.dict == {b, c, d}
    requires b != c && b != d && b != e && c != d && c != e && d != e
    ensures Rem(s, [b, c, e]).0.dict == {d}
    ensures Rem(s, [b, c, e]).1 == 2
  {
    RemThree(s, b, c, e);
    assert {b, c, d} - {b, c, e} == {d};
  }

  lemma ElemsFour(a: string, b: string, c: string, d: string)
    ensures Elems([a, b, c, d]) == {a, b, c, d}
  {
    assert [a, b, c, d][0] == a && [a, b, c, d][1] == b && [a, b, c, d][2] == c && [a, b, c, d][3] == d;
  }

  /** The Rem scenario over any four distinct members and a fifth and a
      sixth name that are not among them. */
  lemma RemScenario(s0: SimpleSet, a: string, b: string, c: string, d: string, e: string, n: string)
    requires s0.dict == {a, b, c, d}
    requires a != b && a != c && a != d && b != c && b != d && c != d
    requires e != a && e != b && e != c && e != d && n != a && n != b && n != c && n != d
    ensures var (s1, r1) := Rem(s0, [a]);
      var (s2, r2) := Rem(s1, [n]);
      var (s3, r3) := Rem(s2, [b, c, e]);
      && r1 == 1 && r2 == 0 && r3 == 2
      && s3.dict == {d}
  {
    RemOne(s0, a);
    var s1 := Rem(s0, [a]).0;
    assert s1.dict == {b, c, d};
    RemOne(s1, n);
    RemTwoOfThree(Rem(s1, [n]).0, b, c, d, e);
  }

  /** Rem of a present, an absent and a partly present list: 1, 0, 2. */
  lemma RemVector()
    ensures var s0 := Add(NewSimpleSet("test"), ["member1", "member2", "member3", "member4"]).0;
      var (s1, r1) := Rem(s0, ["member1"]);
      var (s2, r2) := Rem(s1, ["nonexistent"]);
      var (s3, r3) := Rem(s2, ["member2", "member3", "member5"]);
      && r1 == 1 && r2 == 0 && r3 == 2
      && s3.dict == {"member4"}
  {
    ElemsFour("member1", "member2", "member3", "member4");
    RemScenario(Add(NewSimpleSet("test"), ["member1", "member2", "member3", "member4"]).0,
                "member1", "member2", "member3", "member4", "member5", "nonexistent");
  }

  lemma IsMemberVector()
    ensures IsMember(NewSimpleSet("test"), "nonexistent") == 0
    ensures var s := Add(NewSimpleSet("test"), ["member1", "member2"]).0;
      && IsMember(s, "member1") == 1
      && IsMember(s, "member2") == 1
      && IsMember(s, "member3") == 0
  {
  }

  lemma MembersVector()
    ensures |NewSimpleSet("test").dict| == 0
    ensures Add(NewSimpleSet("test"), ["member1", "member2", "member3"]).0.dict == {"member1", "member2", "member3"}
    ensures |Add(NewSimpleSet("test"), ["member1", "member2", "member3"]).0.dict| == 3
  {
    ElemsThree("member1", "member2", "member3");
  }

  /** The empty string is an ordinary member, and a member repeated in one
      call is stored once. */
  lemma EdgeCasesVector()
    ensures var (s1, a1) := Add(NewSimpleSet("test"), [""]);
      var (s2, r2) := Rem(s1, [""]);
      var s3 := Add(s2, ["duplicate", "duplicate", "duplicate"]).0;
      && a1 == 1 && r2 == 1
      && s3.dict == {"duplicate"}
  {
    AddOne(NewSimpleSet("test"), "");
    RemOne(Add(NewSimpleSet("test"), [""]).0, "");
  }
}

=== FILE: sorted_set.dfy ===
// The sorted set behind ZADD, ZSCORE and ZRANK: a member -> score index
// kept in step with an ordered tree of (score, member) entries.

module SortedSets {
  import Tree = OrderedTree

  datatype SortedSet = SortedSet(tree: Tree.BPlusTree, memberScores: map<string, real>)

  /** The tree holds exactly one entry per indexed member, carrying the
      member's indexed score. */
  predicate Agrees(items: seq<Tree.Entry>, index: map<string, real>)
  {
    && (forall e :: e in items ==> e.member in index && index[e.member] == e.score)
    && (forall m :: m in index ==> Tree.Entry(index[m], m) in items)
  }

  predicate Valid(z: SortedSet)
  {
    Tree.Valid(z.tree) && Agrees(z.tree.items, z.memberScores)
  }

  /** NewSortedSet(degree): an empty tree of that degree and an empty index. */
  function NewSortedSet(degree: int): (z: SortedSet)
    ensures Valid(z)
    ensures z.tree.degree == degree && z.memberScores == map[] && z.tree.items == []
  {
    SortedSet(Tree.NewBPlusTree(degree), map[])
  }

  /** The tree entries left after dropping every entry of `member`. */
  lemma DropMember(z: SortedSet, member: string, t: Tree.BPlusTree)
    requires Valid(z)
    requires t == if member in z.memberScores then Tree.Delete(z.tree, z.memberScores[member], member) else z.tree
    ensures Tree.Valid(t)
    ensures forall e :: e in t.items <==> e in z.tree.items && e.member != member
  {
  }

  /** Add(score, member): an upsert. A prior entry of the member is taken
      out of the tree before the new one goes in; the reply is 1 for an
      insert and for an update alike. */
  function Add(z: SortedSet, score: real, member: string): (r: (SortedSet, int))
    requires Valid(z)
    ensures Valid(r.0) && r.1 == 1
    ensures r.0.tree.degree == z.tree.degree
    ensures r.0.memberScores == z.memberScores[member := score]
    ensures Tree.Score(r.0.tree, member) == (score, true)
    ensures forall e :: e in r.0.tree.items && e.member == member ==> e.score == score
  {
    var t := if member in z.memberScores then Tree.Delete(z.tree, z.memberScores[member], member) else z.tree;
    DropMember(z, member, t);
    var t' := Tree.Add(t, score, member);
    var index := z.memberScores[member := score];
    assert Agrees(t'.items, index);
    var found := Tree.Score(t', member);
    assert Tree.Entry(found.0, member) in t'.items;
    (SortedSet(t', index), 1)
  }

  /** GetScore(member): read from the index; `false` when absent. */
  function GetScore(z: SortedSet, member: string): (r: (real, bool))
    ensures r.1 <==> member in z.memberScores
    ensures r.1 ==> r.0 == z.memberScores[member]
  {
    if member in z.memberScores then (z.memberScores[member], true) else (0.0, false)
  }

  /** GetRank(member): the score comes from the index and the position from
      the tree; -1 when the member is absent. */
  function GetRank(z: SortedSet, member: string): (r: int)
    ensures r == -1 <== member !in z.memberScores
    ensures r >= -1
  {
    if member !in z.memberScores then -1 else Tree.GetRank(z.tree, member)
  }

  // -----------------------------------------------------------------------
  // The index and the tree tell the same story
  // -----------------------------------------------------------------------

  /** The index lookup and the tree scan report the same score. */
  lemma GetScoreMatchesTree(z: SortedSet, member: string)
    requires Valid(z)
    ensures GetScore(z, member).1 == Tree.Score(z.tree, member).1
    ensures GetScore(z, member).1 ==> GetScore(z, member).0 == Tree.Score(z.tree, member).0
  {
    var s := Tree.Score(z.tree, member);
    if s.1 {
      assert Tree.Entry(s.0, member) in z.tree.items;
    }
    if member in z.memberScores {
      assert Tree.Entry(z.memberScores[member], member) in z.tree.items;
    }
  }

  /** The tree of a valid sorted set is fixed by its index alone, so the
      order of earlier Adds cannot matter. */
  lemma TreeDeterminedByIndex(a: SortedSet, b: SortedSet)
    requires Valid(a) && Valid(b) && a.memberScores == b.memberScores
    ensures a.tree.items == b.tree.items
  {
    Tree.SortedUnique(a.tree.items, b.tree.items);
  }

  /** A member's rank is the number of entries ordered before its own. */
  lemma RankIsCountLess(z: SortedSet, member: string)
    requires Valid(z) && member in z.memberScores
    ensures GetRank(z, member) == Tree.CountLess(z.tree.items, Tree.Entry(z.memberScores[member], member))
  {
    var e := Tree.Entry(z.memberScores[member], member);
    assert e in z.tree.items;
    var i := Tree.GetRank(z.tree, member);
    assert 0 <= i;
    assert z.tree.items[i] == e by {
      assert z.tree.items[i] in z.tree.items;
    }
    Tree.PositionIsCountLess(z.tree.items, i);
  }

  /** The rank of a present member points at that member's entry. */
  lemma RankPointsAtEntry(z: SortedSet, member: string)
    requires Valid(z) && member in z.memberScores
    ensures 0 <= GetRank(z, member) < |z.tree.items|
    ensures z.tree.items[GetRank(z, member)] == Tree.Entry(z.memberScores[member], member)
  {
    assert Tree.Entry(z.memberScores[member], member) in z.tree.items;
    var i := Tree.GetRank(z.tree, member);
    assert z.tree.items[i] in z.tree.items;
  }

  /** Ranks follow ascending score, ties broken by member, in both
      directions; distinct members therefore get distinct ranks. */
  lemma RankOrder(z: SortedSet, a: string, b: string)
    requires Valid(z) && a in z.memberScores && b in z.memberScores
    ensures GetRank(z, a) < GetRank(z, b)
        <==> Tree.Less(Tree.Entry(z.memberScores[a], a), Tree.Entry(z.memberScores[b], b))
    ensures a != b ==> GetRank(z, a) != GetRank(z, b)
  {
    RankPointsAtEntry(z, a);
    RankPointsAtEntry(z, b);
    Tree.PositionOrder(z.tree.items, GetRank(z, a), GetRank(z, b));
  }

  // -----------------------------------------------------------------------
  // The recorded scenarios
  // -----------------------------------------------------------------------

  lemma NewSortedSetVector()
    ensures NewSortedSet(3).tree.degree == 3 && |NewSortedSet(3).memberScores| == 0
  {
  }

  /** Inserts and an update all reply 1; the update replaces the score in
      the index and in the tree. */
  lemma AddVector()
    ensures var (z1, a1) := Add(NewSortedSet(3), 10.0, "memberA");
      var (z2, a2) := Add(z1, 20.0, "memberB");
      var (z3, a3) := Add(z2, 15.0, "memberA");
      && a1 == 1 && z1.memberScores["memberA"] == 10.0
      && a2 == 1 && z2.memberScores["memberB"] == 20.0
      && a3 == 1 && z3.memberScores["memberA"] == 15.0
      && Tree.Score(z3.tree, "memberA") == (15.0, true)
  {
  }

  lemma GetScoreVector()
    ensures var z := Add(Add(NewSortedSet(3), 10.0, "member1").0, 20.0, "member2").0;
      && GetScore(z, "member1") == (10.0, true)
      && GetScore(z, "member2") == (20.0, true)
      && !GetScore(z, "non_existent_member").1
  {
  }

  /** The index of the rank scenario fixes the tree's entries. */
  lemma ScenarioItemsOfIndex(z: SortedSet)
    requires Valid(z)
    requires z.memberScores == map["memberA" := 10.0, "memberB" := 20.0, "memberC" := 5.0, "memberD" := 15.0]
    ensures z.tree.items == [Tree.Entry(5.0, "memberC"), Tree.Entry(10.0, "memberA"), Tree.Entry(15.0, "memberD"), Tree.Entry(20.0, "memberB")]
  {
    var l := [Tree.Entry(5.0, "memberC"), Tree.Entry(10.0, "memberA"), Tree.Entry(15.0, "memberD"), Tree.Entry(20.0, "memberB")];
    assert Tree.Sorted(l);
    forall e
      ensures e in z.tree.items <==> e in l
    {
      if e in l {
        assert e.member in z.memberScores && z.memberScores[e.member] == e.score;
      }
    }
    Tree.SortedUnique(z.tree.items, l);
  }

  lemma RanksOfScenarioIndex(z: SortedSet)
    requires Valid(z)
    requires z.memberScores == map["memberA" := 10.0, "memberB" := 20.0, "memberC" := 5.0, "memberD" := 15.0]
    ensures GetRank(z, "memberC") == 0 && GetRank(z, "memberA") == 1
    ensures GetRank(z, "memberD") == 2 && GetRank(z, "memberB") == 3
    ensures GetRank(z, "non_existent_member") == -1
  {
    ScenarioItemsOfIndex(z);
    Tree.RanksOfScenarioItems(z.tree);
  }

  /** Ranks follow ascending score, not insertion order. */
  lemma GetRankVector()
    ensures var z := Add(Add(Add(Add(NewSortedSet(3), 10.0, "memberA").0, 20.0, "memberB").0, 5.0, "memberC").0, 15.0, "memberD").0;
      && GetRank(z, "memberC") == 0
      && GetRank(z, "memberA") == 1
      && GetRank(z, "memberD") == 2
      && GetRank(z, "memberB") == 3
      && GetRank(z, "non_existent_member") == -1
  {
    var z := Add(Add(Add(Add(NewSortedSet(3), 10.0, "memberA").0, 20.0, "memberB").0, 5.0, "memberC").0, 15.0, "memberD").0;
    assert z.memberScores == map["memberA" := 10.0, "memberB" := 20.0, "memberC" := 5.0, "memberD" := 15.0];
    RanksOfScenarioIndex(z);
  }
}
